=== FILE: README.md ===
# sphinxcontrib-imagehelper, modelled in Dafny

sphinxcontrib-imagehelper helps Sphinx extensions that turn non-image
sources (diagrams and the like) into raster images. It has three parts.

- A **directive interceptor**, `<type>-image` and `<type>-figure`. It lets
  docutils' `image`/`figure` directive parse its input. It then swaps the
  images in the first node the base directive returns for placeholder nodes. The placeholder records the image
  type and the source path, resolved against the current document's
  directory.
- An **option validator**, run at `doctree-read`. It checks the query-string
  options attached to an image against the option schema of the converter
  registered for the image's extension.
- A **conversion and cache engine**, run at `doctree-resolved`. It decides
  whether the generated artifact is stale and calls the converter only then.
  It sets the artifact's modification time to the ceiling of the source's,
  and replaces the node with a concrete image that points at the artifact.

The model is functional. The filesystem is a finite map from path to
modification time, written as an exact `real`; a path exists exactly when it
is a key. A converter is a value with three fields: its option schema, its
filename policy, and an uninterpreted `convert` that returns a new
filesystem and a success flag. `ImageConverter.visit` becomes a pure state
transition. The type registry is a map, and the document tree is a small
datatype of elements with attribute maps.

Modules, one per concern:

| file | module | source |
|---|---|---|
| wrappers.dfy | `Wrappers` | `None` and caught exceptions |
| paths.dfy | `Paths` | the `posixpath`/`os.path`/`str` operations used |
| utils.dfy | `Utils` | `utils.py` |
| nodes.dfy | `Nodes` | the docutils node shapes the helper reads |
| converter.dfy | `ImageConverter` | `imageext.py`, class `ImageConverter` |
| registry.dfy | `Registry` | `imageext.py`, `add_image_type`, `get_imageext_handler` |
| options.dfy | `Options` | `imageext.py`, `on_doctree_read` |
| resolve.dfy | `Resolve` | `imageext.py`, `on_doctree_resolved` |
| directives.dfy | `Directives` | `directives.py` |

The main theorem is multi-pass idempotence. Take a successful visit that
leaves the artifact present, or the source absent. A second visit on the
resulting filesystem calls no conversion, changes no modification time, and
produces the same node (`ImageConverter.VisitIdempotent`). The same holds
for rebuilding a whole document that holds one registered image
(`Resolve.RebuildIsIdempotent`).

Behaviours of the code that a reader might not expect, all kept in the
model:

- The artifact's mtime becomes the *ceiling* of the source's mtime
  (imageext.py:85-86), not the source's mtime itself. Idempotence still
  holds, because the ceiling is never below the source's mtime.
- A failed conversion leaves the node in the tree unchanged: only a truthy
  `convert` result leads to `replace_self` (imageext.py:83-92).
- `prerun` is called after the base directive has run (directives.py:16-17).
- `add_image_type` takes a single extension (imageext.py:101). Registering
  several is a sequence of calls (`Registry.AddImageTypes`).
- A source that does not exist is never outdated (utils.py:22-30). The node
  is then replaced without any conversion, and the reference points at an
  artifact that may not exist (`ImageConverter.MissingSourceStillReplaced`).
  So the default `convert`, which returns `None` (imageext.py:97-98),
  prevents a replacement only when a conversion was actually needed.
- A url argument is still joined to the document's directory
  (directives.py:20-22, `Directives.UrlJoinedInSubdir`). The repository's
  test at tests/test_directives.py:94 expects it unchanged.
- `MyImageConverter` in tests/test_imageext.py:16-22 has an empty
  `option_spec`. So `foo` and `bar` are unsupported and never assigned
  (imageext.py:37-38), although lines 40-41 of that test expect them.
- `add_image_type` does not lower-case the extension (imageext.py:109-112),
  while lookups lower-case the uri (imageext.py:17). A key registered with an
  upper-case letter can never be found (`Registry.UpperCaseKeyUnreachable`).
- When two registry entries carry the same type name, a placeholder is
  visited once per entry (imageext.py:57-59), so it may be converted twice
  (`Resolve.VisitMatching`).

## Model

| member | source | states |
|---|---|---|
| `Utils.IsOutdated` | sphinxcontrib/imagehelper/utils.py:22-30 | A missing source is never outdated. With the source present, the artifact is outdated exactly when it is missing or strictly older; equal mtimes are fresh. |
| `Utils.Ceil` | sphinxcontrib/imagehelper/imageext.py:85 | The ceiling of a timestamp is the least integer not below it. |
| `Utils.SyncedIsFresh` | sphinxcontrib/imagehelper/imageext.py:84-86 | Giving the artifact the ceiling of the source's mtime makes it fresh. |
| `Utils.TouchedIsOutdated` | sphinxcontrib/imagehelper/utils.py:26-28 | Moving the source's mtime past the synchronised artifact time makes the artifact stale again. |
| `Utils.IfOutdated` | sphinxcontrib/imagehelper/utils.py:33-40 | The wrapped function runs, with its effect on the filesystem, exactly when outdated. Its result is returned unchanged. Otherwise the answer is `True` and the filesystem is untouched. |
| `Utils.ImageDirName` | sphinxcontrib/imagehelper/utils.py:6-11 | Priority order: the builder's `imagedir`, else `_images` for builders with `imgpath` or html output, else the empty name. |
| `Utils.GetImagedir` | sphinxcontrib/imagehelper/utils.py:5-19 | The absolute directory is `join(outdir, dirname)`. The relative prefix is empty when the name is empty, and otherwise goes through `relative_uri`. |
| `Utils.AbsImagedirIndependentOfDoc` | sphinxcontrib/imagehelper/utils.py:18 | The absolute image directory is the same for every document. |
| `Utils.NonHtmlBuilderHasNoPrefix` | sphinxcontrib/imagehelper/utils.py:10-18 | A builder with no `imagedir`, no `imgpath` and a non-html format gets the empty prefix for every document, and `join(outdir, '')`. |
| `Paths.Join` | sphinxcontrib/imagehelper/directives.py:21 | An absolute second argument replaces the first. Otherwise the result starts with the first and ends with the second, with exactly one separator added when needed. |
| `Paths.JoinRelative` | sphinxcontrib/imagehelper/directives.py:21 | Joining a relative name to a directory with no trailing slash inserts exactly one `/`. |
| `Paths.Dirname` | sphinxcontrib/imagehelper/directives.py:20 | The directory is a prefix of the path. It is empty for a path without `/`, and it has no trailing slash unless it consists only of slashes. |
| `Paths.DirnameOfJoin` | sphinxcontrib/imagehelper/directives.py:20-21 | `dirname` undoes joining a directory with a file name. |
| `Paths.SplitExt` | sphinxcontrib/imagehelper/imageext.py:17 | Root and extension concatenate back to the path. The extension is empty, or a dot followed by neither `/` nor `.`. |
| `Paths.SplitExtOfAppended` | sphinxcontrib/imagehelper/imageext.py:95 | Splitting a root plus a dotted extension returns both, provided the root's file name is not all dots. |
| `Paths.RFindAppend` | sphinxcontrib/imagehelper/imageext.py:17 | Appending text free of a character does not move that character's last occurrence. |
| `ImageConverter.DefaultFilename` | sphinxcontrib/imagehelper/imageext.py:94-95 | The default filename ends in `.png` and starts with the uri's root. |
| `ImageConverter.DefaultFilenameFor` | sphinxcontrib/imagehelper/imageext.py:94-95 | The default `get_filename_for` ends in `.png`, and what precedes `.png` is the root of the node's uri. |
| `ImageConverter.DefaultConvert` | sphinxcontrib/imagehelper/imageext.py:97-98 | The default `convert` writes nothing and reports failure (its `None` is falsy). |
| `ImageConverter.DefaultFilenameReplacesExtension` | sphinxcontrib/imagehelper/imageext.py:95 | For a uri with an extension, or whose file name is not all dots, splitting the default filename gives the uri's root and `.png`: the extension is replaced. (A uri such as `a/` gives `a/.png`, which has no extension.) |
| `ImageConverter.SyncMtime` | sphinxcontrib/imagehelper/imageext.py:84-86 | Only when both files exist does the artifact take the ceiling of the source's mtime, which leaves it fresh. No other file changes. |
| `ImageConverter.Replacement` | sphinxcontrib/imagehelper/imageext.py:88-91 | The new image node has no children and keeps every other attribute. Both `uri` and `candidates['*']` are the relative artifact path. |
| `ImageConverter.Visit` | sphinxcontrib/imagehelper/imageext.py:69-92 | `convert` runs exactly when outdated. A fresh artifact counts as success. The node is replaced exactly on success, with the synchronised filesystem; on failure the converter's filesystem stands. A successful visit leaves a present artifact fresh. |
| `ImageConverter.SyncMtimeIdempotent` | sphinxcontrib/imagehelper/imageext.py:84-86 | Setting the artifact's mtime a second time changes nothing, because the first setting already gave it a whole number. |
| `ImageConverter.VisitIdempotent` | sphinxcontrib/imagehelper/imageext.py:75-92 | After a successful visit that leaves the artifact present, or the source absent, a second visit converts nothing, changes no mtime and yields the same node. |
| `ImageConverter.MissingSourceStillReplaced` | sphinxcontrib/imagehelper/imageext.py:75-92 | With the source missing there is no conversion and no filesystem change, but the node is still replaced. |
| `ImageConverter.DefaultConvertNeverReplacesStale` | sphinxcontrib/imagehelper/imageext.py:97-98 | When a conversion is needed, the default `convert` yields no replacement and leaves the filesystem as it was. |
| `ImageConverter.ConvertStepIsIfOutdated` | sphinxcontrib/imagehelper/imageext.py:75-81 | The conversion step of `visit` is `if_outdated` applied to `convert`, with its skipped `True` read as success. |
| `ImageConverter.SourcePath` | sphinxcontrib/imagehelper/imageext.py:72 | An absolute uri is the source path as it is; a relative one is appended to the source directory. |
| `ImageConverter.ArtifactPath` | sphinxcontrib/imagehelper/imageext.py:70-76 | The artifact path is the converter's filename inside the absolute image directory, or the filename itself when absolute. For a plain file name, the directory `ensuredir` creates is exactly the image directory. |
| `ImageConverter.ReferencePath` | sphinxcontrib/imagehelper/imageext.py:88 | The markup's path is the converter's filename after the relative image directory; it is the filename itself when that directory is empty or the filename is absolute. |
| `ImageConverter.ConvertStep` | sphinxcontrib/imagehelper/imageext.py:75-81 | For a fresh artifact nothing is written and the step succeeds. For a stale one the result is whatever `convert` does on the normalised source and artifact paths. |
| `Registry.NormalizeExt` | sphinxcontrib/imagehelper/imageext.py:109-110 | At most one leading dot is removed: the key is the extension itself or the extension minus its first dot. |
| `Registry.NormalizeExtExamples` | sphinxcontrib/imagehelper/imageext.py:109-110 | `.rst` normalises to `rst`, and `..rst` to `.rst`. |
| `Registry.ExtKey` | sphinxcontrib/imagehelper/imageext.py:17 | The lookup key has no dot, no `/` and no upper-case letter. It is empty exactly when the lower-cased uri has no extension, or only a bare dot. |
| `Registry.ExtKeyOfAppended` | sphinxcontrib/imagehelper/imageext.py:17 | The key of `root.e` is `e` itself, whatever the case of the root, when `e` is lower-case with no dot or `/` and the root's file name is not all dots. |
| `Registry.RegisteredExtensionFound` | sphinxcontrib/imagehelper/imageext.py:109-112 | After registering `.e`, every uri `root.e` (as above) finds the new handler, whatever was registered before. |
| `Registry.GetImageextHandler` | sphinxcontrib/imagehelper/imageext.py:16-22 | The registered handler for the uri's key, or none when that key is absent. |
| `Registry.AddImageType` | sphinxcontrib/imagehelper/imageext.py:101-112 | The registry is created and the four wiring steps are taken only when no registry exists. The normalised key is set, overwriting any earlier entry, and all other entries are kept. |
| `Registry.RegistrationWiresOnce` | sphinxcontrib/imagehelper/imageext.py:102-112 | Any non-empty series of registrations wires the application exactly once, and every registered extension ends up mapped to the handler. |
| `Registry.AddImageTypes` | sphinxcontrib/imagehelper/imageext.py:101-112 | A series of registrations leaves the application unchanged when empty. Otherwise the registry exists afterwards and is wired only if it did not exist before. Its keys are the old keys plus the normalised extensions, and no others. |
| `Registry.EntryKept` | sphinxcontrib/imagehelper/imageext.py:109-112 | Later registrations never remove an entry. An entry keeps its value unless one of the extensions re-registers its key, in which case it takes the new type name and handler. |
| `Registry.LookupAfterAdd` | sphinxcontrib/imagehelper/imageext.py:16-22 | After a registration, matching uris find the new handler, and every other uri finds what it found before. |
| `Registry.UpperCaseKeyUnreachable` | sphinxcontrib/imagehelper/imageext.py:17 | A key holding an upper-case letter is never the lookup key of any uri. |
| `Options.FirstFailure` | sphinxcontrib/imagehelper/imageext.py:41-43 | The index where the value loop stops: every earlier value parses, and the value at that index fails. |
| `Options.WarningFor` | sphinxcontrib/imagehelper/imageext.py:36-45 | The warning for one name: "Unsupported option" with the uri for a name outside the schema. Otherwise none exactly when every value parses, and on a failure one "Fail to apply" with the first failure's message and the uri as the value loop has left it. |
| `Options.ApplyValues` | sphinxcontrib/imagehelper/imageext.py:39-45 | Only the named attribute changes. It ends holding the last value parsed before the first failure, or is untouched if the first value fails. The error is the first failure's message. |
| `Options.LastSuccessWins` | sphinxcontrib/imagehelper/imageext.py:41-42 | When every value parses, the attribute holds the last one and no warning is given. |
| `Options.ValidateOptions` | sphinxcontrib/imagehelper/imageext.py:35-45 | Attributes not named in the query keep their values, every attribute is kept, and new attributes are supported names only. There are no more warnings than entries in the query; which warnings each name draws is stated by `Options.WarningsPerName`. |
| `Options.Step` | sphinxcontrib/imagehelper/imageext.py:36-45 | One name of the query can add or change only its own attribute. An unsupported name changes nothing and draws exactly one `Unsupported` warning. A supported name draws no warning exactly when every value parses, and at most one otherwise. Every warning names that option. |
| `Options.WarningsPerName` | sphinxcontrib/imagehelper/imageext.py:36-45 | With distinct names, the warnings naming the i-th name are exactly its own warning: an all-parsing supported name draws none, and a failing one draws one with the first failure's message. |
| `Options.NotNamedNotWarned` | sphinxcontrib/imagehelper/imageext.py:36-45 | A name absent from the query draws no warning. |
| `Options.UnsupportedIsWarned` | sphinxcontrib/imagehelper/imageext.py:37-39 | Every unknown name in the query draws an "Unsupported option" warning. |
| `Options.PerNameOutcome` | sphinxcontrib/imagehelper/imageext.py:36-45 | With distinct names, an unsupported name leaves its attribute as it was. A supported name ends as its own value loop leaves it, whatever the name order. |
| `Options.ApplyValuesIndependent` | sphinxcontrib/imagehelper/imageext.py:42 | The value loop for a name depends only on that name's previous attribute. |
| `Options.UnregisteredRejectsAll` | sphinxcontrib/imagehelper/imageext.py:32-38 | With an empty schema no attribute changes, and each name gets exactly one "Unsupported option" warning. |
| `Options.SpecFor` | sphinxcontrib/imagehelper/imageext.py:32-33 | The schema is the registered converter's `option_spec`, or empty for an unregistered extension. |
| `Options.ReadTree` | sphinxcontrib/imagehelper/imageext.py:30-45 | Kinds and child counts are kept. Only image nodes gain attributes, and an image with an unregistered extension keeps its attributes. |
| `Options.ReadKeepsShape` | sphinxcontrib/imagehelper/imageext.py:30-45 | Throughout the tree, an image's attributes become exactly what its own option string validates to against the schema of the converter its extension selects; every other node keeps its attributes, and kinds and shape are kept. |
| `Resolve.ConvertImages` | sphinxcontrib/imagehelper/imageext.py:49-53 | The first loop makes at most one conversion per image node and keeps the tree well-formed. A non-image root keeps its kind, attributes and child count; an unregistered image keeps its attributes. |
| `Resolve.ConvertImagesAll` | sphinxcontrib/imagehelper/imageext.py:49 | The first loop over a list of siblings keeps their number and well-formedness, with at most one conversion per image. |
| `Resolve.ImagePassKeepsShape` | sphinxcontrib/imagehelper/imageext.py:49-53 | For any tree and filesystem, only registered images may change, each into exactly the concrete image of the converter its extension selects. Every other node keeps kind and attributes, and its children follow the same rule position by position. |
| `Resolve.VisitMatching` | sphinxcontrib/imagehelper/imageext.py:55-59 | Given an iteration order listing each registry key once, a placeholder is visited exactly once per entry carrying its type name, with at most that many conversions. With no matching entry, nothing happens. Any replacement is the concrete image of one of those entries' converters. |
| `Resolve.VisitEntries` | sphinxcontrib/imagehelper/imageext.py:57-59 | Over a list of distinct keys, a placeholder is visited once per listed entry carrying its type name, with no more conversions than visits. With no such entry, nothing changes. Any replacement is the concrete image of some registry entry carrying that type name. |
| `Resolve.OneEntryVisits` | sphinxcontrib/imagehelper/imageext.py:57-59 | When exactly one entry carries the type name, the inner loop amounts to that one entry's visit. |
| `Resolve.ConvertPlaceholders` | sphinxcontrib/imagehelper/imageext.py:55-59 | Nodes other than placeholders keep kind, attributes and child count. A tree without placeholders comes back unchanged, with the filesystem untouched and no conversion. |
| `Resolve.PlaceholderPassKeepsShape` | sphinxcontrib/imagehelper/imageext.py:55-59 | For any tree and filesystem, only placeholders may change, each into the concrete image of some entry carrying its type name. Every other node keeps kind and attributes, and its children follow the same rule position by position. |
| `Resolve.OnDoctreeResolved` | sphinxcontrib/imagehelper/imageext.py:48-59 | Both loops run in turn. In the first, only registered images may change, each into its own converter's concrete image. In the second, over the first's result, only placeholders may change, each into the concrete image of an entry carrying its type name. Everything else keeps kind, attributes and position. A root that is not a placeholder keeps its kind. |
| `Resolve.EmptyRegistryIsIdentity` | sphinxcontrib/imagehelper/imageext.py:48-59 | With nothing registered, resolving converts nothing and changes neither the tree nor the filesystem. |
| `Resolve.RebuildIsIdempotent` | sphinxcontrib/imagehelper/imageext.py:48-53 | Take a document with one registered image whose first build succeeded and left its artifact in place. A second build makes zero conversions, keeps every mtime and yields the same tree. |
| `Resolve.RebuildPlaceholderIsIdempotent` | sphinxcontrib/imagehelper/imageext.py:48-59 | Take a document with one placeholder whose type name exactly one entry carries, and whose first build succeeded and left its artifact in place. A second build makes zero conversions, keeps every mtime and yields the same tree. |
| `Directives.DirectiveNameRoundTrip` | sphinxcontrib/imagehelper/directives.py:54-71 | The names `<name>-image` and `<name>-figure` determine both the type name and the directive kind. |
| `Directives.PlaceholderAttrs` | sphinxcontrib/imagehelper/directives.py:28-30 | The placeholder keeps every attribute of the image and adds `imageext_type` and the resolved `uri`. |
| `Directives.Rewrite` | sphinxcontrib/imagehelper/directives.py:33-39 | No image is left in the rewritten subtree, and `postrun` is called once per image. A subtree without images comes back unchanged with no call. A non-image root keeps its kind, attributes and child count; an image becomes a childless placeholder, and the first call is its `postrun`. |
| `Directives.RewriteKeepsShape` | sphinxcontrib/imagehelper/directives.py:33-39 | At every depth, each image becomes a childless placeholder carrying what `postrun` makes of its placeholder attributes. Every other node keeps its kind and attributes, and its children follow the same rule position by position. |
| `Directives.RewriteCallsInOrder` | sphinxcontrib/imagehelper/directives.py:34-38 | The `postrun` calls are one per image of the subtree, in document order (images below an image included), each on that image's placeholder attributes. |
| `Directives.Run` | sphinxcontrib/imagehelper/directives.py:15-41 | `prerun` comes first. A url is neither checked nor noted. An unreadable local file fails with the warning text; a readable one is the single dependency. Only the first node changes, and the list length is kept. A top-level image becomes one childless placeholder with a single `postrun` call. Otherwise every image at any depth inside the first node becomes its placeholder, other nodes keep kind and attributes, and `postrun` is called once per image in document order. |
| `Directives.UrlIgnoresReadability` | sphinxcontrib/imagehelper/directives.py:22-25 | For a url argument, the outcome does not depend on which files are readable. |
| `Directives.PlaceholderKeepsAttributes` | sphinxcontrib/imagehelper/directives.py:27-32 | With the default `postrun`, an image becomes a placeholder with the type and resolved uri. Every other attribute, such as `names` or a custom option, survives. |
| `Directives.FigureChildrenRewritten` | sphinxcontrib/imagehelper/directives.py:33-39 | Each child of a figure keeps its position. An image child becomes a placeholder with the resolved uri; a child without images, such as a plain caption, is unchanged; any other child has the images inside it replaced in the same way. |
| `Directives.TargetFigureRewritten` | sphinxcontrib/imagehelper/directives.py:33-39 | For a figure with a target (figure, reference, image) and an image-free caption, the image two levels down becomes its placeholder, the caption is kept, and there is exactly one `postrun` call. |
| `Directives.ImagesCounted` | sphinxcontrib/imagehelper/directives.py:34 | The document-order list of images has one entry per image node of the subtree. |
| `Directives.ResolvedUriAtTop` | sphinxcontrib/imagehelper/directives.py:20-21 | From a top-level document, `contents.rst` and `subdir/contents.rst` resolve to themselves. |
| `Directives.ResolvedUri` | sphinxcontrib/imagehelper/directives.py:20-21 | An absolute argument is the uri as it is. A relative one is appended to the document's directory, and stays as it is for a top-level document. |
| `Directives.UrlHasSeparator` | sphinxcontrib/imagehelper/directives.py:22 | An argument counts as a url exactly when the characters `://` occur in it one after the other, anywhere. |
| `Directives.ResolvedUriInDirectory` | sphinxcontrib/imagehelper/directives.py:20-21 | From a document in directory `dir`, a relative argument resolves to `dir/` followed by the argument. |
| `Directives.ResolvedUriInSubdir` | sphinxcontrib/imagehelper/directives.py:20-21 | From `subdir/contents.rst`, `filename.rst` resolves to `subdir/filename.rst`. |
| `Directives.UrlJoinedInSubdir` | sphinxcontrib/imagehelper/directives.py:21-22 | `http://example.com/` is recognised as a url, yet from a document in `subdir` it still resolves to `subdir/http://example.com/`. |

## Left out

- `cgi.parse_qs`: the query string's parse is a parameter. Its result is a sequence of distinct names with their values in dictionary order. Python 2 dictionary order is arbitrary, so no warning order is promised beyond that input order.
- Sphinx and docutils plumbing are parameters or inputs, not code: `relative_uri`, `get_target_uri`, `doc2path`, and the base `Image`/`Figure.run`. So the html prefixes `_images` for `index` and `../_images` for `subdir/index` are not derived; they come from `relative_uri`.
- `app.connect`, `add_node` and `add_directive` are modelled only as the recorded wiring steps and directive names.
- `on_builder_inited` is not modelled. It adds an `option` entry to the shared `Image`/`Figure` option specs.
- The `generate_image_directive`/`generate_figure_directive` loops are not modelled. They copy extra options into class-level option specs that every generated class shares.
- Real I/O is abstracted: file contents, `ensuredir` (directories are not in the filesystem map), and the atime half of `os.utime`. `os.access` is a readability predicate.
- `os.path.normpath` is a parameter applied only to the paths handed to `convert`. The filesystem map is keyed by the paths as joined, so two spellings of one file are two keys.
- Float timestamps are exact reals.
- `str.lower` is modelled as ASCII lower-casing: the uri is a unicode string, and its case folding beyond ASCII is not modelled. `Registry.ExtKey`'s no-upper-case guarantee and `Registry.UpperCaseKeyUnreachable` therefore speak of ASCII letters only.
- Exceptions other than `ValueError`/`TypeError` from an option parser are not modelled. They would abort the build.
- `Resolve.VisitMatching`: when two registry entries share a type name and both visits succeed, the model keeps the first replacement. The order of the registry's values is a parameter, `order`, listing each key once. In docutils, the second `replace_self` on the already-detached node would raise instead.
- `Directives.Run`: an image whose attributes already contain `imageext_type` is not distinguished. There, the Python keyword call `image_node(imageext_type=..., **attrs)` would raise `TypeError`; the model overwrites the key.
- `ImageConverter.Replacement`: `nodes.image(**attrs)` lower-cases attribute names and copies list attributes in docutils. The model copies the map verbatim.
- `ImageConverter.DefaultFilenameFor` is only applied to nodes with a string `uri`. Its empty-uri fallback is never reached by the pipeline.
- `__init__.py` re-exports `ImageExtHandler`, which `imageext.py` does not define (the class there is `ImageConverter`). The model follows `imageext.py`. `setup.py` is packaging only.
- `Resolve.RebuildIsIdempotent` is stated for a document with a single registered image. With several images, an uninterpreted converter may touch any file, so idempotence of a whole document does not follow in general.
- `Resolve.RebuildPlaceholderIsIdempotent` is stated for a document with a single placeholder whose type name exactly one registry entry carries. With several placeholders, or several entries sharing the type name, the visits may touch each other's files, so idempotence does not follow in general.
- `ImageConverter.Visit`: `get_filename_for` and `convert` receive the node itself (imageext.py:71,77), and the replacement copies the node's attributes after `convert` has run (imageext.py:89). The model passes only the attribute map, so a `convert` that mutates the node's attributes does not have that change carried into the replacement.
- `Resolve.OnDoctreeResolved`: the shape relations say which nodes may change and into what; whether a given node is replaced depends on the filesystem its visit sees, which is threaded through in document order and not summarised for whole trees.
- `Options.ReadTree`: the order and content of the warnings for a whole tree are not stated; `Options.WarningsPerName` states them per image.
- `Directives.Run`: `typeName`, `argument` and `env` stand for the directive's state after `prerun` has run (directives.py:17 calls it before lines 19-25 read them); what a subclass's `prerun` does is not modelled, only that it is called. `postrun` is modelled as a function of the placeholder's attributes alone, so a `postrun` that keeps state between calls or adds children to the placeholder is not modelled.

=== FILE: converter.dfy ===
/** imageext.py, class `ImageConverter`: deciding whether a derived image is
    stale, regenerating it through a pluggable conversion, synchronising its
    modification time, and building the image node that replaces the
    placeholder. */
module ImageConverter {
  import opened Wrappers
  import opened Paths
  import opened Utils
  import opened Nodes

  /** An option parser from a converter's `option_spec`: a `Failure` stands
      for the ValueError or TypeError it raises. */
  type Parser = string -> Result<Value, string>

  /** A converter class, as the three things the pipeline asks of it.
      `filenameFor` is only ever applied to nodes that carry a string uri;
      `convert` answers the filesystem after conversion and whether the
      result was truthy. */
  datatype Converter = Converter(
    optionSpec: map<string, Parser>,
    filenameFor: Attrs -> string,
    convert: (Attrs, Path, Path, FileSystem) -> (FileSystem, bool))

  /** The default `get_filename_for`: the uri with its extension replaced by
      `.png` (the directory part of the uri is kept). */
  function DefaultFilename(uri: string): (f: string)
    ensures EndsWith(f, ".png")
    ensures StartsWith(f, SplitExt(uri).0)
  {
    SplitExt(uri).0 + ".png"
  }

  /** Splitting the default filename again yields the uri's root and the
      extension `.png`: the extension of the uri has been replaced (or, for
      a uri without one, appended). */
  lemma DefaultFilenameReplacesExtension(uri: string)
    requires SplitExt(uri).1 != "" || BaseHasNonDot(uri)
    ensures SplitExt(DefaultFilename(uri)) == (SplitExt(uri).0, ".png")
  {
    var root := SplitExt(uri).0;
    assert Free(".png", '/') && Free(".png"[1..], '.');
    if SplitExt(uri).1 != "" {
      RootOfExtensionHasNonDot(uri);
    }
    SplitExtOfAppended(root, ".png");
  }

  /** A path whose split produced an extension keeps a proper file name in
      its root. */
  lemma RootOfExtensionHasNonDot(p: Path)
    requires SplitExt(p).1 != ""
    ensures BaseHasNonDot(SplitExt(p).0)
  {
    var sep := RFind(p, '/');
    var dot := RFind(p, '.');
    var root := p[..dot];
    assert SplitExt(p).0 == root;
    assert p == root + p[dot..];
    assert Free(p[dot..], '/') by {
      forall j | 0 <= j < |p[dot..]| ensures p[dot..][j] != '/' {
        assert p[dot..][j] == p[dot + j];
      }
    }
    RFindAppend(root, p[dot..], '/');
    var k :| sep + 1 <= k < dot && p[k] != '.';
    assert root[k] != '.';
  }

  /** The default `get_filename_for(node)`; the pipeline only calls it on
      nodes with a string uri, so the empty fallback is never reached. */
  function DefaultFilenameFor(attrs: Attrs): (f: string)
    ensures EndsWith(f, ".png")
    ensures HasStr(attrs, "uri") ==> f[..|f| - 4] == SplitExt(Uri(attrs)).0
  {
    DefaultFilename(if HasStr(attrs, "uri") then Uri(attrs) else "")
  }

  /** The default `convert` is `pass`: it returns `None` and writes nothing. */
  function DefaultConvert(attrs: Attrs, src: Path, dst: Path, fs: FileSystem): (r: (FileSystem, bool))
    ensures r.0 == fs && !r.1
  {
    (fs, false)
  }

  /** A subclass of `ImageConverter` that only sets `option_spec`. */
  function BaseConverter(spec: map<string, Parser>): Converter
  {
    Converter(spec, DefaultFilenameFor, DefaultConvert)
  }

  // ---------------------------------------------------------------------
  // visit

  /** The parts of the Sphinx application `visit` reads: the source
      directory, the builder, Sphinx's `relative_uri`, and `os.path.normpath`
      (applied only to the paths handed to `convert`). */
  datatype Env = Env(
    srcdir: Path,
    builder: Builder,
    relativeUri: (string, string) -> string,
    normpath: Path -> Path)

  /** `srcpath`: the source file under the source directory. */
  function SourcePath(env: Env, attrs: Attrs): (p: Path)
    requires HasStr(attrs, "uri")
    ensures StartsWith(Uri(attrs), "/") ==> p == Uri(attrs)
    ensures !StartsWith(Uri(attrs), "/") ==> StartsWith(p, env.srcdir) && EndsWith(p, Uri(attrs))
  {
    Join(env.srcdir, Uri(attrs))
  }

  /** `abs_imgpath`: where the artifact is written. */
  function ArtifactPath(env: Env, conv: Converter, docname: string, attrs: Attrs): (p: Path)
    requires HasStr(attrs, "uri")
    ensures var dir := GetImagedir(env.builder, env.relativeUri, docname).1;
            var f := conv.filenameFor(attrs);
            && (StartsWith(f, "/") ==> p == f)
            && (!StartsWith(f, "/") ==> StartsWith(p, dir) && EndsWith(p, f))
            // the directory `ensuredir` creates is the image directory
            && (dir != "" && dir[|dir| - 1] != '/' && f != "" && Free(f, '/') ==> Dirname(p) == dir)
  {
    var dir := GetImagedir(env.builder, env.relativeUri, docname).1;
    var f := conv.filenameFor(attrs);
    if dir != "" && dir[|dir| - 1] != '/' && f != "" && Free(f, '/') then
      DirnameOfJoin(dir, f);
      Join(dir, f)
    else
      Join(dir, f)
  }

  /** `rel_imgpath`: how the generated markup refers to the artifact. */
  function ReferencePath(env: Env, conv: Converter, docname: string, attrs: Attrs): (p: Path)
    requires HasStr(attrs, "uri")
    ensures var rel := GetImagedir(env.builder, env.relativeUri, docname).0;
            var f := conv.filenameFor(attrs);
            && (StartsWith(f, "/") || rel == "" ==> p == f)
            && (!StartsWith(f, "/") ==> StartsWith(p, rel) && EndsWith(p, f))
  {
    Join(GetImagedir(env.builder, env.relativeUri, docname).0, conv.filenameFor(attrs))
  }

  /** The `os.utime` step: the artifact takes the ceiling of the source's
      mtime, but only when both files exist. */
  function SyncMtime(fs: FileSystem, src: Path, dst: Path): (r: FileSystem)
    ensures r.Keys == fs.Keys
    ensures forall p | p in fs && p != dst :: r[p] == fs[p]
    ensures src in fs && dst in fs ==> r[dst] == Ceil(fs[src]) as real
    ensures src in fs && dst in fs ==> !IsOutdated(r, src, dst)
    ensures !(src in fs && dst in fs) ==> r == fs
  {
    if src in fs && dst in fs then fs[dst := Ceil(fs[src]) as real] else fs
  }

  /** Synchronising twice is synchronising once: the artifact's new mtime
      is already a whole number. */
  lemma SyncMtimeIdempotent(fs: FileSystem, src: Path, dst: Path)
    ensures SyncMtime(SyncMtime(fs, src, dst), src, dst) == SyncMtime(fs, src, dst)
  {
    var once := SyncMtime(fs, src, dst);
    if src in fs && dst in fs {
      var k := Ceil(fs[src]);
      assert Ceil(k as real) == k;
      assert Ceil(once[src]) == k;
      assert once[dst := Ceil(once[src]) as real] == once;
    }
  }

  /** The concrete image node: every attribute of the placeholder, with
      `candidates` mapping `*` to `rel` and `uri` set to `rel`. */
  function Replacement(attrs: Attrs, rel: Path): (n: Node)
    ensures n.kind == Image && n.children == []
    ensures n.attrs.Keys == attrs.Keys + {"uri", "candidates"}
    ensures n.attrs["uri"] == Str(rel)
    ensures n.attrs["candidates"] == Dict(map["*" := Str(rel)])
    ensures forall k | k in attrs && k != "uri" && k != "candidates" :: n.attrs[k] == attrs[k]
  {
    Node(Image, attrs["candidates" := Dict(map["*" := Str(rel)])]["uri" := Str(rel)], [])
  }

  /** The conversion step of `visit`: `convert` runs only when the artifact
      is outdated; otherwise the step counts as a success. */
  function ConvertStep(env: Env, conv: Converter, docname: string, fs: FileSystem,
                       attrs: Attrs): (r: (FileSystem, bool))
    requires HasStr(attrs, "uri")
    // a fresh artifact: nothing is written and the step succeeds
    ensures !IsOutdated(fs, SourcePath(env, attrs), ArtifactPath(env, conv, docname, attrs)) ==> r == (fs, true)
    // a stale one: whatever `convert` does on the normalised paths
    ensures IsOutdated(fs, SourcePath(env, attrs), ArtifactPath(env, conv, docname, attrs)) ==>
      r == conv.convert(attrs, env.normpath(SourcePath(env, attrs)),
                        env.normpath(ArtifactPath(env, conv, docname, attrs)), fs)
  {
    var src := SourcePath(env, attrs);
    var dst := ArtifactPath(env, conv, docname, attrs);
    if IsOutdated(fs, src, dst) then conv.convert(attrs, env.normpath(src), env.normpath(dst), fs)
    else (fs, true)
  }

  /** The outcome of one visit: the filesystem afterwards, whether `convert`
      was called, and the node that replaces the visited one, if any. */
  datatype VisitResult = VisitResult(fs: FileSystem, converted: bool, replacement: Option<Node>)

  /** `ImageConverter.visit(docname, node)` as a state transition. */
  function Visit(env: Env, conv: Converter, docname: string, fs: FileSystem,
                 attrs: Attrs): (r: VisitResult)
    requires HasStr(attrs, "uri")
    // convert runs exactly when the artifact is outdated
    ensures r.converted <==> IsOutdated(fs, SourcePath(env, attrs), ArtifactPath(env, conv, docname, attrs))
    // a fresh artifact counts as success and leaves every file alone but the artifact's mtime
    ensures !r.converted ==> r.replacement.Some?
    ensures !r.converted ==> r.fs == SyncMtime(fs, SourcePath(env, attrs), ArtifactPath(env, conv, docname, attrs))
    // after a conversion, the node is replaced exactly when convert reported success
    ensures r.converted ==>
      var (fs1, ok) := conv.convert(attrs, env.normpath(SourcePath(env, attrs)),
                                    env.normpath(ArtifactPath(env, conv, docname, attrs)), fs);
      && (r.replacement.Some? <==> ok)
      && (!ok ==> r.fs == fs1)
      && (ok ==> r.fs == SyncMtime(fs1, SourcePath(env, attrs), ArtifactPath(env, conv, docname, attrs)))
    // on success with both files present the artifact is fresh for the next pass
    ensures r.replacement.Some? && SourcePath(env, attrs) in r.fs && ArtifactPath(env, conv, docname, attrs) in r.fs ==>
      !IsOutdated(r.fs, SourcePath(env, attrs), ArtifactPath(env, conv, docname, attrs))
    ensures r.replacement.Some? ==> r.replacement.value == Replacement(attrs, ReferencePath(env, conv, docname, attrs))
  {
    var src := SourcePath(env, attrs);
    var dst := ArtifactPath(env, conv, docname, attrs);
    var (fs1, ok) := ConvertStep(env, conv, docname, fs, attrs);
    var converted := IsOutdated(fs, src, dst);
    if ok then
      VisitResult(SyncMtime(fs1, src, dst), converted,
                  Some(Replacement(attrs, ReferencePath(env, conv, docname, attrs))))
    else
      VisitResult(fs1, converted, None)
  }

  /** `m` is the concrete image `visit` puts in place of a node whose
      attributes are `attrs`, for the artifact path `m` now refers to. */
  predicate IsReplacementOf(attrs: Attrs, m: Node) {
    HasStr(m.attrs, "uri") && m == Replacement(attrs, Uri(m.attrs))
  }

  /** Whatever `visit` puts in the tree is the concrete image of the
      visited node. */
  lemma VisitReplaces(env: Env, conv: Converter, docname: string, fs: FileSystem, attrs: Attrs)
    requires HasStr(attrs, "uri")
    ensures var v := Visit(env, conv, docname, fs, attrs);
            v.replacement.Some? ==> IsReplacementOf(attrs, v.replacement.value)
  {
    var rel := ReferencePath(env, conv, docname, attrs);
    assert Replacement(attrs, rel).attrs["uri"] == Str(rel);
  }

  /** A replacement built for a well-formed image is a well-formed image
      leaf. */
  lemma VisitReplacementWellFormed(env: Env, conv: Converter, docname: string, fs: FileSystem, attrs: Attrs)
    requires HasStr(attrs, "uri") && ("option" in attrs ==> attrs["option"].Str?)
    ensures var v := Visit(env, conv, docname, fs, attrs);
            v.replacement.Some? ==> v.replacement.value.kind == Image && WellFormed(v.replacement.value)
  {
    var m := Replacement(attrs, ReferencePath(env, conv, docname, attrs));
    assert m.attrs["uri"] == Str(ReferencePath(env, conv, docname, attrs));
    assert "option" in m.attrs ==> m.attrs["option"] == attrs["option"];
  }

  /** Multi-pass idempotence: after a successful visit that leaves the
      artifact present (or the source absent), visiting again on the
      resulting filesystem calls no conversion, changes no mtime and
      produces the same node. */
  lemma VisitIdempotent(env: Env, conv: Converter, docname: string, fs: FileSystem, attrs: Attrs)
    requires HasStr(attrs, "uri")
    requires Visit(env, conv, docname, fs, attrs).replacement.Some?
    requires var r1 := Visit(env, conv, docname, fs, attrs);
             SourcePath(env, attrs) in r1.fs ==> ArtifactPath(env, conv, docname, attrs) in r1.fs
    ensures var r1 := Visit(env, conv, docname, fs, attrs);
            var r2 := Visit(env, conv, docname, r1.fs, attrs);
            !r2.converted && r2.fs == r1.fs && r2.replacement == r1.replacement
  {
    var r1 := Visit(env, conv, docname, fs, attrs);
    var src := SourcePath(env, attrs);
    var dst := ArtifactPath(env, conv, docname, attrs);
    var fs1 := ConvertStep(env, conv, docname, fs, attrs).0;
    assert r1.fs == SyncMtime(fs1, src, dst);
    SyncMtimeIdempotent(fs1, src, dst);
    assert !IsOutdated(r1.fs, src, dst);
  }

  /** With a missing source nothing is converted and no file changes, yet
      the node is still replaced (pointing at an artifact that may not
      exist). */
  lemma MissingSourceStillReplaced(env: Env, conv: Converter, docname: string, fs: FileSystem, attrs: Attrs)
    requires HasStr(attrs, "uri")
    requires SourcePath(env, attrs) !in fs
    ensures var r := Visit(env, conv, docname, fs, attrs);
            !r.converted && r.fs == fs && r.replacement.Some?
  {
  }

  /** The default `convert` never produces a replacement when a conversion is
      needed, and then leaves the filesystem untouched. */
  lemma DefaultConvertNeverReplacesStale(spec: map<string, Parser>, env: Env, docname: string,
                                         fs: FileSystem, attrs: Attrs)
    requires HasStr(attrs, "uri")
    requires IsOutdated(fs, SourcePath(env, attrs), ArtifactPath(env, BaseConverter(spec), docname, attrs))
    ensures Visit(env, BaseConverter(spec), docname, fs, attrs) == VisitResult(fs, true, None)
  {
  }

  /** The conversion step of `visit` is the `if_outdated` decorator applied
      to `convert`, its skipped `True` read as success. */
  lemma ConvertStepIsIfOutdated(env: Env, conv: Converter, docname: string, fs: FileSystem, attrs: Attrs)
    requires HasStr(attrs, "uri")
    ensures var src := SourcePath(env, attrs);
            var dst := ArtifactPath(env, conv, docname, attrs);
            var fn := (fs': FileSystem, s: Path, d: Path) => conv.convert(attrs, env.normpath(s), env.normpath(d), fs');
            var g := IfOutdated(fn, fs, src, dst);
            ConvertStep(env, conv, docname, fs, attrs) ==
              (g.0, match g.1 case SkippedTrue => true case Ran(ok) => ok)
  {
  }
}

=== FILE: directives.dfy ===
/** directives.py: the `<type>-image` and `<type>-figure` directives, which
    let docutils' own `image`/`figure` directive parse the input and then
    swap each resulting image for a placeholder node that remembers the
    image type and the resolved source path. */
module Directives {
  import opened Wrappers
  import opened Paths
  import opened Nodes

  // ---------------------------------------------------------------------
  // Directive names

  datatype DirectiveKind = ImageDirective | FigureDirective

  /** `'%s-image' % name` and `'%s-figure' % name`. */
  function DirectiveName(typeName: string, kind: DirectiveKind): string
  {
    match kind
    case ImageDirective => typeName + "-image"
    case FigureDirective => typeName + "-figure"
  }

  /** Reading a directive name back into its type name and kind. */
  function ParseDirectiveName(d: string): Option<(string, DirectiveKind)>
  {
    if EndsWith(d, "-image") then Some((d[..|d| - 6], ImageDirective))
    else if EndsWith(d, "-figure") then Some((d[..|d| - 7], FigureDirective))
    else None
  }

  /** The registered name determines the type and the directive kind: no
      two registrations collide. */
  lemma DirectiveNameRoundTrip(typeName: string, kind: DirectiveKind)
    ensures ParseDirectiveName(DirectiveName(typeName, kind)) == Some((typeName, kind))
  {
    var d := DirectiveName(typeName, kind);
    if kind == FigureDirective {
      assert d[|d| - 6] == 'f';
      assert !EndsWith(d, "-image");
      assert d[..|d| - 7] == typeName;
    } else {
      assert d[..|d| - 6] == typeName;
    }
  }

  // ---------------------------------------------------------------------
  // ImageExtMixIn.run

  /** What `run` reads from the build environment: the current document's
      source path (`env.doc2path(env.docname, base=None)`), the source
      directory, and whether a file is readable (`os.access(.., R_OK)`). */
  datatype DirectiveEnv = DirectiveEnv(docPath: Path, srcdir: Path, readable: Path -> bool)

  /** The calls made to the two extension hooks, in order. */
  datatype HookCall = Prerun | Postrun(attrs: Attrs)

  /** The outcome of `run`: the returned nodes or the raised warning, the
      dependencies noted, and the hook calls made. */
  datatype RunOutcome = RunOutcome(result: Result<seq<Node>, string>, dependencies: seq<Path>, calls: seq<HookCall>)

  /** The directive argument, resolved against the current document's
      directory. */
  function ResolvedUri(docPath: Path, argument: string): (r: Path)
    // an absolute argument is taken as it is
    ensures StartsWith(argument, "/") ==> r == argument
    // a relative one is appended to the document's directory
    ensures !StartsWith(argument, "/") ==> StartsWith(r, Dirname(docPath)) && EndsWith(r, argument)
    ensures !StartsWith(argument, "/") && Free(docPath, '/') ==> r == argument
  {
    Join(Dirname(docPath), argument)
  }

  /** `argument.find('://') != -1`: a url is any argument holding a scheme
      separator, wherever it occurs. */
  predicate IsUrl(argument: string) {
    Contains(argument, "://")
  }

  /** An argument is a url exactly when the three characters `://` stand
      somewhere in it, one after the other. */
  lemma UrlHasSeparator(argument: string)
    ensures IsUrl(argument) <==>
      exists i | 0 <= i < |argument| - 2 :: argument[i] == ':' && argument[i + 1] == '/' && argument[i + 2] == '/'
  {
    if IsUrl(argument) {
      var i :| 0 <= i <= |argument| && OccursAt(argument, "://", i);
      assert argument[i..i + 3][0] == argument[i];
      assert argument[i..i + 3][1] == argument[i + 1];
      assert argument[i..i + 3][2] == argument[i + 2];
    }
    if i :| 0 <= i < |argument| - 2 && argument[i] == ':' && argument[i + 1] == '/' && argument[i + 2] == '/' {
      assert argument[i..i + 3] == "://";
      assert OccursAt(argument, "://", i);
    }
  }

  /** The attributes of a new placeholder: those of the image, the type
      name, and the resolved uri; `postrun` then sees and may change them. */
  function PlaceholderAttrs(typeName: string, attrs: Attrs, uri: Path): (a: Attrs)
    ensures a.Keys == attrs.Keys + {"imageext_type", "uri"}
    ensures a["imageext_type"] == Str(typeName) && a["uri"] == Str(uri)
    ensures forall k | k in attrs && k != "imageext_type" && k != "uri" :: a[k] == attrs[k]
  {
    attrs["imageext_type" := Str(typeName)]["uri" := Str(uri)]
  }

  /** A rewritten subtree and the `postrun` calls made while rewriting it. */
  datatype Rewritten = Rewritten(node: Node, calls: seq<HookCall>)

  datatype RewrittenAll = RewrittenAll(nodes: seq<Node>, calls: seq<HookCall>)

  /** Replacing every `image` of a subtree, in document order. A replaced
      image's children were in the traversal's snapshot, so their own
      replacement still calls `postrun` though the result is detached. */
  function Rewrite(typeName: string, postrun: Attrs -> Attrs, uri: Path, n: Node): (r: Rewritten)
    ensures Count(r.node, Image) == 0
    ensures |r.calls| == Count(n, Image)
    ensures Count(n, Image) == 0 ==> r == Rewritten(n, [])
    ensures n.kind != Image ==> r.node.kind == n.kind && r.node.attrs == n.attrs && |r.node.children| == |n.children|
    ensures n.kind == Image ==>
      var a := PlaceholderAttrs(typeName, n.attrs, uri);
      r.node == Node(Placeholder, postrun(a), []) && r.calls[0] == Postrun(a)
    decreases n
  {
    var rest := RewriteAll(typeName, postrun, uri, n.children);
    if n.kind == Image then
      var a := PlaceholderAttrs(typeName, n.attrs, uri);
      Rewritten(Node(Placeholder, postrun(a), []), [Postrun(a)] + rest.calls)
    else
      Rewritten(Node(n.kind, n.attrs, rest.nodes), rest.calls)
  }

  function RewriteAll(typeName: string, postrun: Attrs -> Attrs, uri: Path, ns: seq<Node>): (r: RewrittenAll)
    ensures |r.nodes| == |ns|
    ensures CountAll(r.nodes, Image) == 0
    ensures |r.calls| == CountAll(ns, Image)
    ensures CountAll(ns, Image) == 0 ==> r == RewrittenAll(ns, [])
    decreases ns
  {
    if |ns| == 0 then RewrittenAll([], [])
    else
      var first := Rewrite(typeName, postrun, uri, ns[0]);
      var rest := RewriteAll(typeName, postrun, uri, ns[1..]);
      assert ([first.node] + rest.nodes)[1..] == rest.nodes;
      assert CountAll(ns, Image) == 0 ==> [first.node] + rest.nodes == ns;
      RewrittenAll([first.node] + rest.nodes, first.calls + rest.calls)
  }

  /** What rewriting does to a subtree, everywhere in it: an image becomes a
      childless placeholder whose attributes are what `postrun` makes of
      the placeholder attributes; every other node keeps its kind and
      attributes, and its children change in the same way, position by
      position. */
  predicate RewriteShape(typeName: string, postrun: Attrs -> Attrs, uri: Path, n: Node, m: Node)
    decreases n
  {
    if n.kind == Image then m == Node(Placeholder, postrun(PlaceholderAttrs(typeName, n.attrs, uri)), [])
    else
      && m.kind == n.kind && m.attrs == n.attrs && |m.children| == |n.children|
      && forall i | 0 <= i < |n.children| :: RewriteShape(typeName, postrun, uri, n.children[i], m.children[i])
  }

  lemma {:induction false} RewriteKeepsShape(typeName: string, postrun: Attrs -> Attrs, uri: Path, n: Node)
    ensures RewriteShape(typeName, postrun, uri, n, Rewrite(typeName, postrun, uri, n).node)
    decreases n, 1
  {
    if n.kind != Image {
      RewriteKeepsShapeAll(typeName, postrun, uri, n.children);
    }
  }

  lemma {:induction false} RewriteKeepsShapeAll(typeName: string, postrun: Attrs -> Attrs, uri: Path, ns: seq<Node>)
    ensures var r := RewriteAll(typeName, postrun, uri, ns).nodes;
            forall i | 0 <= i < |ns| :: RewriteShape(typeName, postrun, uri, ns[i], r[i])
    decreases ns, 0
  {
    if |ns| > 0 {
      var first := Rewrite(typeName, postrun, uri, ns[0]);
      var rest := RewriteAll(typeName, postrun, uri, ns[1..]);
      var r := RewriteAll(typeName, postrun, uri, ns).nodes;
      assert r == [first.node] + rest.nodes;
      RewriteKeepsShape(typeName, postrun, uri, ns[0]);
      RewriteKeepsShapeAll(typeName, postrun, uri, ns[1..]);
      forall i | 1 <= i < |ns|
        ensures RewriteShape(typeName, postrun, uri, ns[i], r[i])
      {
        assert ns[i] == ns[1..][i - 1] && r[i] == rest.nodes[i - 1];
      }
    }
  }

  /** The attributes of every image of a subtree, in document (pre-)order,
      those below an image included. */
  function ImagesOf(n: Node): seq<Attrs>
    decreases n
  {
    (if n.kind == Image then [n.attrs] else []) + ImagesOfAll(n.children)
  }

  function ImagesOfAll(ns: seq<Node>): seq<Attrs>
    decreases ns
  {
    if |ns| == 0 then [] else ImagesOf(ns[0]) + ImagesOfAll(ns[1..])
  }

  /** One `postrun` call per image, each on that image's placeholder
      attributes. */
  function Postruns(typeName: string, uri: Path, images: seq<Attrs>): (calls: seq<HookCall>)
    ensures |calls| == |images|
    ensures forall i | 0 <= i < |images| :: calls[i] == Postrun(PlaceholderAttrs(typeName, images[i], uri))
    decreases |images|
  {
    if |images| == 0 then []
    else [Postrun(PlaceholderAttrs(typeName, images[0], uri))] + Postruns(typeName, uri, images[1..])
  }

  lemma PostrunsAppend(typeName: string, uri: Path, xs: seq<Attrs>, ys: seq<Attrs>)
    ensures Postruns(typeName, uri, xs + ys) == Postruns(typeName, uri, xs) + Postruns(typeName, uri, ys)
  {
    var l := Postruns(typeName, uri, xs + ys);
    var r := Postruns(typeName, uri, xs) + Postruns(typeName, uri, ys);
    assert |l| == |r|;
    forall i | 0 <= i < |l| ensures l[i] == r[i] {
      if i < |xs| { assert (xs + ys)[i] == xs[i]; } else { assert (xs + ys)[i] == ys[i - |xs|]; }
    }
  }

  /** Rewriting calls `postrun` once per image of the subtree, in document
      order, each on that image's placeholder attributes. */
  lemma {:induction false} RewriteCallsInOrder(typeName: string, postrun: Attrs -> Attrs, uri: Path, n: Node)
    ensures Rewrite(typeName, postrun, uri, n).calls == Postruns(typeName, uri, ImagesOf(n))
    decreases n, 1
  {
    RewriteAllCallsInOrder(typeName, postrun, uri, n.children);
    var own: seq<Attrs> := if n.kind == Image then [n.attrs] else [];
    PostrunsAppend(typeName, uri, own, ImagesOfAll(n.children));
  }

  lemma {:induction false} RewriteAllCallsInOrder(typeName: string, postrun: Attrs -> Attrs, uri: Path, ns: seq<Node>)
    ensures RewriteAll(typeName, postrun, uri, ns).calls == Postruns(typeName, uri, ImagesOfAll(ns))
    decreases ns, 0
  {
    if |ns| > 0 {
      RewriteCallsInOrder(typeName, postrun, uri, ns[0]);
      RewriteAllCallsInOrder(typeName, postrun, uri, ns[1..]);
      PostrunsAppend(typeName, uri, ImagesOf(ns[0]), ImagesOfAll(ns[1..]));
    }
  }

  /** `ImageExtMixIn.run()`, given the nodes the base directive returned. */
  function Run(typeName: string, postrun: Attrs -> Attrs, env: DirectiveEnv,
               argument: string, base: seq<Node>): (r: RunOutcome)
    requires |base| > 0
    // the prerun hook always runs first, after the base directive
    ensures |r.calls| > 0 && r.calls[0] == Prerun
    // a url is neither checked nor recorded as a dependency
    ensures IsUrl(argument) ==> r.result.Success? && r.dependencies == []
    // a local file must be readable, and is then the one dependency
    ensures !IsUrl(argument) && !env.readable(Join(env.srcdir, ResolvedUri(env.docPath, argument))) ==>
              r.result == Failure(typeName + " file not readable: " + argument) && r.dependencies == [] && r.calls == [Prerun]
    ensures !IsUrl(argument) && env.readable(Join(env.srcdir, ResolvedUri(env.docPath, argument))) ==>
              r.result.Success? && r.dependencies == [ResolvedUri(env.docPath, argument)]
    // only the first node changes; it is a placeholder if it was an image,
    // otherwise it keeps its kind and attributes and loses every image
    ensures r.result.Success? ==>
      var out := r.result.value;
      var uri := ResolvedUri(env.docPath, argument);
      && |out| == |base|
      && out[1..] == base[1..]
      && Count(out[0], Image) == 0
      // a top-level image is swapped as a whole: one postrun call
      && (base[0].kind == Image ==>
            var a := PlaceholderAttrs(typeName, base[0].attrs, uri);
            out[0] == Node(Placeholder, postrun(a), []) && r.calls == [Prerun, Postrun(a)])
      // otherwise every image inside, at any depth, is swapped, with one
      // postrun call each in document order
      && (base[0].kind != Image ==>
            && RewriteShape(typeName, postrun, uri, base[0], out[0])
            && r.calls == [Prerun] + Postruns(typeName, uri, ImagesOf(base[0])))
  {
    var relpath := ResolvedUri(env.docPath, argument);
    if !IsUrl(argument) && !env.readable(Join(env.srcdir, relpath)) then
      RunOutcome(Failure(typeName + " file not readable: " + argument), [], [Prerun])
    else
      var deps := if IsUrl(argument) then [] else [relpath];
      if base[0].kind == Image then
        var a := PlaceholderAttrs(typeName, base[0].attrs, relpath);
        var out := base[0 := Node(Placeholder, postrun(a), [])];
        assert out[1..] == base[1..];
        RunOutcome(Success(out), deps, [Prerun, Postrun(a)])
      else
        RewriteKeepsShape(typeName, postrun, relpath, base[0]);
        RewriteCallsInOrder(typeName, postrun, relpath, base[0]);
        var first := Rewrite(typeName, postrun, relpath, base[0]);
        var out := base[0 := first.node];
        assert out[1..] == base[1..];
        RunOutcome(Success(out), deps, [Prerun] + first.calls)
  }

  // ---------------------------------------------------------------------
  // Properties

  /** Whether the argument is a url decides alone whether readability
      matters: for a url the result does not depend on the filesystem. */
  lemma UrlIgnoresReadability(typeName: string, postrun: Attrs -> Attrs, env: DirectiveEnv,
                              readable': Path -> bool, argument: string, base: seq<Node>)
    requires |base| > 0 && IsUrl(argument)
    ensures Run(typeName, postrun, env, argument, base) ==
            Run(typeName, postrun, env.(readable := readable'), argument, base)
  {
  }

  /** With the default (no-op) `postrun`, a placeholder keeps every
      attribute the image had, such as `names` or a custom option, apart
      from the two it sets. */
  lemma PlaceholderKeepsAttributes(typeName: string, env: DirectiveEnv, argument: string, base: seq<Node>)
    requires |base| > 0 && base[0].kind == Image
    ensures var r := Run(typeName, a => a, env, argument, base);
            r.result.Success? ==>
              var p := r.result.value[0];
              && p.kind == Placeholder
              && p.attrs["uri"] == Str(ResolvedUri(env.docPath, argument))
              && p.attrs["imageext_type"] == Str(typeName)
              && forall k | k in base[0].attrs && k != "uri" && k != "imageext_type" ::
                   k in p.attrs && p.attrs[k] == base[0].attrs[k]
  {
  }

  /** A figure's children stay in place: each image child becomes a
      placeholder with the resolved uri, an image-free child such as a
      caption is unchanged, and any other child has the images inside it
      replaced in the same way. */
  lemma FigureChildrenRewritten(typeName: string, env: DirectiveEnv, argument: string, base: seq<Node>, i: int)
    requires |base| > 0 && base[0].kind != Image
    requires 0 <= i < |base[0].children|
    ensures var r := Run(typeName, a => a, env, argument, base);
            r.result.Success? ==>
              var uri := ResolvedUri(env.docPath, argument);
              var c := base[0].children[i];
              var c' := r.result.value[0].children[i];
              && RewriteShape(typeName, a => a, uri, c, c')
              && (Count(c, Image) == 0 ==> c' == c)
              && (c.kind != Image ==> c'.kind == c.kind && c'.attrs == c.attrs)
              && (c.kind == Image ==> c' == Node(Placeholder, PlaceholderAttrs(typeName, c.attrs, uri), []))
  {
    var uri := ResolvedUri(env.docPath, argument);
    RewriteAllIndex(typeName, a => a, uri, base[0].children, i);
  }

  lemma {:induction false} RewriteAllIndex(typeName: string, postrun: Attrs -> Attrs, uri: Path, ns: seq<Node>, i: int)
    requires 0 <= i < |ns|
    ensures RewriteAll(typeName, postrun, uri, ns).nodes[i] == Rewrite(typeName, postrun, uri, ns[i]).node
    decreases |ns|
  {
    if i > 0 {
      RewriteAllIndex(typeName, postrun, uri, ns[1..], i - 1);
    }
  }

  /** A figure with a `:target:` nests its image inside a reference: the
      image two levels down still becomes its placeholder, and an
      image-free caption is kept as it was. */
  lemma TargetFigureRewritten(typeName: string, postrun: Attrs -> Attrs, env: DirectiveEnv, argument: string,
                              figure: Attrs, reference: Attrs, image: Attrs, caption: Node)
    requires Count(caption, Image) == 0
    ensures var base := [Node(Element("figure"), figure, [Node(Element("reference"), reference, [Node(Image, image, [])]), caption])];
            var r := Run(typeName, postrun, env, argument, base);
            r.result.Success? ==>
              var out := r.result.value[0];
              && |out.children| == 2 && |out.children[0].children| == 1
              && out.children[0].children[0]
                   == Node(Placeholder, postrun(PlaceholderAttrs(typeName, image, ResolvedUri(env.docPath, argument))), [])
              && out.children[1] == caption
              && r.calls == [Prerun, Postrun(PlaceholderAttrs(typeName, image, ResolvedUri(env.docPath, argument)))]
  {
    var uri := ResolvedUri(env.docPath, argument);
    TargetFigureRewrite(typeName, postrun, uri, figure, reference, image, caption);
  }

  lemma TargetFigureRewrite(typeName: string, postrun: Attrs -> Attrs, uri: Path,
                            figure: Attrs, reference: Attrs, image: Attrs, caption: Node)
    requires Count(caption, Image) == 0
    ensures var ph := Node(Placeholder, postrun(PlaceholderAttrs(typeName, image, uri)), []);
            Rewrite(typeName, postrun, uri,
                    Node(Element("figure"), figure, [Node(Element("reference"), reference, [Node(Image, image, [])]), caption]))
              == Rewritten(Node(Element("figure"), figure, [Node(Element("reference"), reference, [ph]), caption]),
                           [Postrun(PlaceholderAttrs(typeName, image, uri))])
  {
    var a := PlaceholderAttrs(typeName, image, uri);
    var ph := Node(Placeholder, postrun(a), []);
    var img := Node(Image, image, []);
    var ref := Node(Element("reference"), reference, [img]);
    assert RewriteAll(typeName, postrun, uri, []) == RewrittenAll([], []);
    assert Rewrite(typeName, postrun, uri, img) == Rewritten(ph, [Postrun(a)]);
    assert [img][1..] == [];
    assert RewriteAll(typeName, postrun, uri, [img]) == RewrittenAll([ph], [Postrun(a)]);
    assert Rewrite(typeName, postrun, uri, ref) == Rewritten(Node(Element("reference"), reference, [ph]), [Postrun(a)]);
    assert [caption][1..] == [];
    assert RewriteAll(typeName, postrun, uri, [caption]) == RewrittenAll([caption], []);
    assert [ref, caption][1..] == [caption];
    assert RewriteAll(typeName, postrun, uri, [ref, caption])
             == RewrittenAll([Node(Element("reference"), reference, [ph]), caption], [Postrun(a)]);
  }

  /** `ImagesOf` lists one entry per image. */
  lemma {:induction false} ImagesCounted(n: Node)
    ensures |ImagesOf(n)| == Count(n, Image)
    decreases n, 1
  {
    ImagesCountedAll(n.children);
  }

  lemma {:induction false} ImagesCountedAll(ns: seq<Node>)
    ensures |ImagesOfAll(ns)| == CountAll(ns, Image)
    decreases ns, 0
  {
    if |ns| > 0 {
      ImagesCounted(ns[0]);
      ImagesCountedAll(ns[1..]);
    }
  }

  /** A document at the top of the source tree resolves arguments to
      themselves. */
  lemma ResolvedUriAtTop()
    ensures ResolvedUri("contents.rst", "contents.rst") == "contents.rst"
    ensures ResolvedUri("contents.rst", "subdir/contents.rst") == "subdir/contents.rst"
  {
    assert Free("contents.rst", '/');
    assert !StartsWith("contents.rst", "/") by { assert "contents.rst"[..1] == "c"; }
    assert !StartsWith("subdir/contents.rst", "/") by { assert "subdir/contents.rst"[..1] == "s"; }
  }

  /** A document in directory `dir` resolves a relative argument inside
      `dir`. */
  lemma ResolvedUriInDirectory(dir: Path, file: Path, argument: string)
    requires dir != "" && dir[|dir| - 1] != '/'
    requires file != "" && Free(file, '/')
    requires argument != "" && argument[0] != '/'
    ensures ResolvedUri(Join(dir, file), argument) == dir + "/" + argument
  {
    DirnameOfJoin(dir, file);
    JoinRelative(dir, argument);
  }

  /** A document in `subdir` resolves its argument inside `subdir`. */
  lemma ResolvedUriInSubdir()
    ensures ResolvedUri("subdir" + "/" + "contents.rst", "filename.rst") == "subdir" + "/" + "filename.rst"
  {
    JoinRelative("subdir", "contents.rst");
    ResolvedUriInDirectory("subdir", "contents.rst", "filename.rst");
  }

  lemma ExampleUrl()
    ensures IsUrl("http://example.com/")
  {
    assert OccursAt("http://example.com/", "://", 4);
  }

  /** A url is joined to the document's directory like any other argument:
      only the readability check and the dependency are skipped. */
  lemma UrlJoinedInSubdir()
    ensures IsUrl("http://example.com/")
    ensures ResolvedUri("subdir" + "/" + "contents.rst", "http://example.com/") == "subdir" + "/" + "http://example.com/"
  {
    ExampleUrl();
    JoinRelative("subdir", "contents.rst");
    ResolvedUriInDirectory("subdir", "contents.rst", "http://example.com/");
  }
}

=== FILE: nodes.dfy ===
/** The slice of the docutils document tree the helper touches: elements
    with a tag and an attribute dictionary, in which `image` elements and
    the helper's own placeholder elements (`image_node`) are told apart.
    `image_node` is not a subclass of `nodes.image`, so a traversal for
    images never yields a placeholder. */
module Nodes {

  /** The Python values stored as node attributes. */
  datatype Value =
    | Str(s: string)
    | Int(i: int)
    | Bool(b: bool)
    | List(items: seq<Value>)
    | Dict(entries: map<string, Value>)

  type Attrs = map<string, Value>

  datatype Kind = Image | Placeholder | Element(tag: string)

  datatype Node = Node(kind: Kind, attrs: Attrs, children: seq<Node>)

  predicate HasStr(attrs: Attrs, key: string) {
    key in attrs && attrs[key].Str?
  }

  /** `node['uri']` of a node known to carry a string uri. */
  function Uri(attrs: Attrs): string
    requires HasStr(attrs, "uri")
  {
    attrs["uri"].s
  }

  /** What docutils and the directives guarantee of the nodes the helper
      reads: an image has a string `uri` (and, if any, a string `option`);
      a placeholder also names its type under `imageext_type`. */
  predicate WellFormed(n: Node)
    decreases n
  {
    && (n.kind == Image ==> HasStr(n.attrs, "uri") && ("option" in n.attrs ==> n.attrs["option"].Str?))
    && (n.kind == Placeholder ==> HasStr(n.attrs, "uri") && HasStr(n.attrs, "imageext_type"))
    && AllWellFormed(n.children)
  }

  predicate AllWellFormed(ns: seq<Node>)
    decreases ns
  {
    |ns| > 0 ==> WellFormed(ns[0]) && AllWellFormed(ns[1..])
  }

  lemma OnlyChildWellFormed(k: Kind, attrs: Attrs, n: Node)
    requires WellFormed(Node(k, attrs, [n]))
    ensures WellFormed(n)
  {
  }

  /** Number of nodes of kind `k` in the subtree rooted at `n`, the root included. */
  function Count(n: Node, k: Kind): nat
    decreases n
  {
    (if n.kind == k then 1 else 0) + CountAll(n.children, k)
  }

  function CountAll(ns: seq<Node>, k: Kind): nat
    decreases ns
  {
    if |ns| == 0 then 0 else Count(ns[0], k) + CountAll(ns[1..], k)
  }
}

=== FILE: options.dfy ===
/** imageext.py, `on_doctree_read`: validating and applying the options a
    user attached to an image as a query string. The query string itself is
    parsed by `cgi.parse_qs`, which the model takes as given: a sequence of
    distinct option names, in dictionary order, each with its raw values. */
module Options {
  import opened Wrappers
  import opened Nodes
  import opened ImageConverter
  import opened Registry

  type ParsedQuery = seq<(string, seq<string>)>

  /** The two non-fatal warnings of the pass; `at` is the node's `uri` at
      the moment the warning is emitted. */
  datatype Warning =
    | Unsupported(name: string, at: Value)
    | ApplyFailed(name: string, at: Value, message: string)

  predicate DistinctNames(q: ParsedQuery) {
    forall i, j | 0 <= i < j < |q| :: q[i].0 != q[j].0
  }

  /** The option names of a query. */
  function Names(q: ParsedQuery): set<string>
    decreases |q|
  {
    if |q| == 0 then {} else {q[0].0} + Names(q[1..])
  }

  /** A name is among the names exactly when some entry carries it. */
  lemma {:induction false} NamesIndex(q: ParsedQuery, name: string)
    ensures name in Names(q) <==> exists i | 0 <= i < |q| :: q[i].0 == name
    decreases |q|
  {
    if |q| > 0 {
      NamesIndex(q[1..], name);
      if name in Names(q[1..]) {
        var i :| 0 <= i < |q[1..]| && q[1..][i].0 == name;
        assert q[i + 1].0 == name;
      }
      if exists i | 0 <= i < |q| :: q[i].0 == name {
        var i :| 0 <= i < |q| && q[i].0 == name;
        if i > 0 {
          assert q[1..][i - 1].0 == name;
        }
      }
    }
  }

  /** Index of the first value the parser rejects, or `|values|`. */
  function FirstFailure(parse: Parser, values: seq<string>): (k: nat)
    ensures k <= |values|
    ensures forall i | 0 <= i < k :: parse(values[i]).Success?
    ensures k < |values| ==> parse(values[k]).Failure?
  {
    if |values| == 0 || parse(values[0]).Failure? then 0
    else 1 + FirstFailure(parse, values[1..])
  }

  /** The inner loop for one recognised name: every value is parsed in turn
      and assigned, so the last success before the first failure wins; the
      first failure ends the loop with its message. */
  function ApplyValues(attrs: Attrs, name: string, parse: Parser, values: seq<string>): (r: (Attrs, Option<string>))
    // only the attribute `name` can change, and keys are never removed
    ensures r.0.Keys == attrs.Keys || r.0.Keys == attrs.Keys + {name}
    ensures forall k | k in attrs && k != name :: r.0[k] == attrs[k]
    // the error is the first failure's message
    ensures r.1.None? <==> FirstFailure(parse, values) == |values|
    ensures r.1.Some? ==> parse(values[FirstFailure(parse, values)]) == Failure(r.1.value)
    // the value kept is that of the last value parsed before the first failure
    ensures FirstFailure(parse, values) == 0 ==> r.0 == attrs
    ensures FirstFailure(parse, values) > 0 ==>
      r.0 == attrs[name := parse(values[FirstFailure(parse, values) - 1]).value]
    decreases |values|
  {
    if |values| == 0 then (attrs, None)
    else match parse(values[0])
      case Failure(msg) => (attrs, Some(msg))
      case Success(v) =>
        var r := ApplyValues(attrs[name := v], name, parse, values[1..]);
        assert FirstFailure(parse, values) == 1 + FirstFailure(parse, values[1..]);
        r
  }

  /** When every value parses, the last one wins. */
  lemma LastSuccessWins(attrs: Attrs, name: string, parse: Parser, values: seq<string>)
    requires |values| > 0
    requires forall i | 0 <= i < |values| :: parse(values[i]).Success?
    ensures ApplyValues(attrs, name, parse, values) == (attrs[name := parse(values[|values| - 1]).value], None)
  {
    assert FirstFailure(parse, values) == |values|;
  }

  /** The warning (if any) for one option name: an unknown name is
      reported with the node's current uri; a known name whose value loop
      fails is reported with the first failure's message and with the uri
      as the loop left it (an option named `uri` may have changed it). */
  function WarningFor(attrs: Attrs, spec: map<string, Parser>, name: string, values: seq<string>): (w: Option<Warning>)
    requires "uri" in attrs
    ensures name !in spec ==> w == Some(Unsupported(name, attrs["uri"]))
    ensures name in spec ==> (w.None? <==> forall i | 0 <= i < |values| :: spec[name](values[i]).Success?)
    ensures name in spec && w.Some? ==>
      var k := FirstFailure(spec[name], values);
      && k < |values|
      && w.value == ApplyFailed(name,
                                if name == "uri" && k > 0 then spec[name](values[k - 1]).value else attrs["uri"],
                                spec[name](values[k]).error)
  {
    if name !in spec then Some(Unsupported(name, attrs["uri"]))
    else
      var (a, err) := ApplyValues(attrs, name, spec[name], values);
      match err
      case None => None
      case Some(msg) => Some(ApplyFailed(name, a["uri"], msg))
  }

  /** The node's attributes after validation, and the warnings given. */
  datatype Validated = Validated(attrs: Attrs, warnings: seq<Warning>)

  /** One name of the query: a known name's value loop, and the warning
      (none or one) the name draws. */
  function Step(attrs: Attrs, spec: map<string, Parser>, name: string, values: seq<string>): (r: Validated)
    requires "uri" in attrs
    // only the attribute `name` can be added or changed
    ensures "uri" in r.attrs
    ensures attrs.Keys <= r.attrs.Keys <= attrs.Keys + {name}
    ensures forall k | k in attrs && k != name :: r.attrs[k] == attrs[k]
    // an unknown name changes nothing and is reported once
    ensures name !in spec ==> r == Validated(attrs, [Unsupported(name, attrs["uri"])])
    // a known name is silent exactly when every value parses
    ensures |r.warnings| <= 1
    ensures forall i | 0 <= i < |r.warnings| :: r.warnings[i].name == name
    ensures name in spec ==> (r.warnings == [] <==> forall i | 0 <= i < |values| :: spec[name](values[i]).Success?)
  {
    var w := WarningFor(attrs, spec, name, values);
    Validated(if name in spec then ApplyValues(attrs, name, spec[name], values).0 else attrs,
              if w.Some? then [w.value] else [])
  }

  /** The outer loop of `on_doctree_read` for one image: unknown names are
      warned about and dropped, known names go through `ApplyValues`. */
  function ValidateOptions(attrs: Attrs, spec: map<string, Parser>, q: ParsedQuery): (r: Validated)
    requires "uri" in attrs
    ensures "uri" in r.attrs
    ensures attrs.Keys <= r.attrs.Keys
    // attributes not named in the query keep their values
    ensures forall k | k in attrs && k !in Names(q) :: r.attrs[k] == attrs[k]
    ensures forall k | k in r.attrs && k !in attrs :: k in Names(q) && k in spec
    // at most one warning per entry of the query
    ensures |r.warnings| <= |q|
    decreases |q|
  {
    if |q| == 0 then Validated(attrs, [])
    else
      var step := Step(attrs, spec, q[0].0, q[0].1);
      var rest := ValidateOptions(step.attrs, spec, q[1..]);
      Validated(rest.attrs, step.warnings + rest.warnings)
  }

  /** Every unsupported name draws an "Unsupported option" warning. */
  lemma {:induction false} UnsupportedIsWarned(attrs: Attrs, spec: map<string, Parser>, q: ParsedQuery, i: int)
    requires "uri" in attrs
    requires 0 <= i < |q| && q[i].0 !in spec
    ensures exists w | w in ValidateOptions(attrs, spec, q).warnings :: w.Unsupported? && w.name == q[i].0
    decreases |q|
  {
    var (name, values) := q[0];
    var attrs1 := Step(attrs, spec, name, values).attrs;
    var rest := ValidateOptions(attrs1, spec, q[1..]);
    var r := ValidateOptions(attrs, spec, q);
    if i == 0 {
      assert r.warnings[0] == Unsupported(name, attrs["uri"]);
    } else {
      assert q[1..][i - 1] == q[i];
      UnsupportedIsWarned(attrs1, spec, q[1..], i - 1);
      assert r.warnings == Step(attrs, spec, name, values).warnings + rest.warnings;
      var w :| w in rest.warnings && w.Unsupported? && w.name == q[i].0;
      assert w in r.warnings;
    }
  }

  /** The warnings of `ws` that are about option `name`, in order. */
  function Naming(ws: seq<Warning>, name: string): seq<Warning>
  {
    if |ws| == 0 then []
    else (if ws[0].name == name then [ws[0]] else []) + Naming(ws[1..], name)
  }

  lemma {:induction false} NamingAppend(a: seq<Warning>, b: seq<Warning>, name: string)
    ensures Naming(a + b, name) == Naming(a, name) + Naming(b, name)
    decreases |a|
  {
    if |a| > 0 {
      assert (a + b)[0] == a[0] && (a + b)[1..] == a[1..] + b;
      NamingAppend(a[1..], b, name);
    } else {
      assert a + b == b;
    }
  }

  lemma {:induction false} NamingNone(ws: seq<Warning>, name: string)
    requires forall j | 0 <= j < |ws| :: ws[j].name != name
    ensures Naming(ws, name) == []
    decreases |ws|
  {
    if |ws| > 0 {
      NamingNone(ws[1..], name);
    }
  }

  /** A name the query does not mention draws no warning. */
  lemma {:induction false} NotNamedNotWarned(attrs: Attrs, spec: map<string, Parser>, q: ParsedQuery, name: string)
    requires "uri" in attrs
    requires forall k | 0 <= k < |q| :: q[k].0 != name
    ensures Naming(ValidateOptions(attrs, spec, q).warnings, name) == []
    decreases |q|
  {
    if |q| > 0 {
      var (name0, values) := q[0];
      var attrs1 := Step(attrs, spec, name0, values).attrs;
      var head := Step(attrs, spec, name0, values).warnings;
      var rest := ValidateOptions(attrs1, spec, q[1..]);
      assert ValidateOptions(attrs, spec, q).warnings == head + rest.warnings;
      assert forall k | 0 <= k < |q[1..]| :: q[1..][k] == q[k + 1];
      NotNamedNotWarned(attrs1, spec, q[1..], name);
      NamingAppend(head, rest.warnings, name);
      assert Naming(head, name) == [] by {
        if |head| > 0 {
          assert head[0].name == name0 && head[1..] == [];
        }
      }
    }
  }

  /** With distinct names (as `parse_qs` produces), the warnings about the
      `i`-th name are exactly its own: one "Unsupported option" warning for
      an unknown name, one "Fail to apply" warning with the first failure's
      message for a known name whose value loop fails, and none for a known
      name whose values all parse. `before` is the node as the earlier
      names left it. */
  lemma {:induction false} WarningsPerName(attrs: Attrs, spec: map<string, Parser>, q: ParsedQuery, i: int)
    requires "uri" in attrs
    requires DistinctNames(q)
    requires 0 <= i < |q|
    ensures var before := ValidateOptions(attrs, spec, q[..i]).attrs;
            var w := WarningFor(before, spec, q[i].0, q[i].1);
            Naming(ValidateOptions(attrs, spec, q).warnings, q[i].0) == (if w.Some? then [w.value] else [])
    decreases i
  {
    if i == 0 {
      assert q[..0] == [];
      OwnWarning(attrs, spec, q);
    } else {
      var attrs1 := Step(attrs, spec, q[0].0, q[0].1).attrs;
      assert DistinctNames(q[1..]) by {
        forall a, b | 0 <= a < b < |q[1..]| ensures q[1..][a].0 != q[1..][b].0 {
          assert q[1..][a] == q[a + 1] && q[1..][b] == q[b + 1];
        }
      }
      WarningsPerName(attrs1, spec, q[1..], i - 1);
      assert q[1..][i - 1] == q[i];
      OtherNameSkipped(attrs, spec, q, q[i].0);
      PrefixCons(attrs, spec, q, i);
    }
  }

  /** The warnings about a name other than the first come from the rest of
      the query. */
  lemma OtherNameSkipped(attrs: Attrs, spec: map<string, Parser>, q: ParsedQuery, name: string)
    requires "uri" in attrs
    requires |q| > 0 && q[0].0 != name
    ensures var step := Step(attrs, spec, q[0].0, q[0].1);
            Naming(ValidateOptions(attrs, spec, q).warnings, name) == Naming(ValidateOptions(step.attrs, spec, q[1..]).warnings, name)
  {
    var step := Step(attrs, spec, q[0].0, q[0].1);
    var rest := ValidateOptions(step.attrs, spec, q[1..]);
    assert ValidateOptions(attrs, spec, q).warnings == step.warnings + rest.warnings;
    NamingAppend(step.warnings, rest.warnings, name);
    assert Naming(step.warnings, name) == [] by {
      if |step.warnings| > 0 {
        assert step.warnings[1..] == [];
      }
    }
    assert [] + Naming(rest.warnings, name) == Naming(rest.warnings, name);
  }

  /** The node as the first `i` names leave it, through the first step. */
  lemma PrefixCons(attrs: Attrs, spec: map<string, Parser>, q: ParsedQuery, i: int)
    requires "uri" in attrs
    requires 0 < i <= |q|
    ensures var step := Step(attrs, spec, q[0].0, q[0].1);
            ValidateOptions(attrs, spec, q[..i]).attrs == ValidateOptions(step.attrs, spec, q[1..][..i - 1]).attrs
  {
    assert q[..i][0] == q[0] && q[..i][1..] == q[1..][..i - 1];
  }

  /** The pass over a query whose first name is not repeated: that name's
      warnings are the one `WarningFor` gives. */
  lemma OwnWarning(attrs: Attrs, spec: map<string, Parser>, q: ParsedQuery)
    requires "uri" in attrs
    requires DistinctNames(q)
    requires |q| > 0
    ensures var w := WarningFor(attrs, spec, q[0].0, q[0].1);
            Naming(ValidateOptions(attrs, spec, q).warnings, q[0].0) == (if w.Some? then [w.value] else [])
  {
    var (name, values) := q[0];
    var attrs1 := Step(attrs, spec, name, values).attrs;
    var head := Step(attrs, spec, name, values).warnings;
    var later := ValidateOptions(attrs1, spec, q[1..]);
    assert ValidateOptions(attrs, spec, q).warnings == head + later.warnings;
    assert forall k | 0 <= k < |q[1..]| :: q[1..][k] == q[k + 1];
    NotNamedNotWarned(attrs1, spec, q[1..], name);
    NamingAppend(head, later.warnings, name);
    assert Naming(head, name) == head by {
      if |head| > 0 {
        assert head[0].name == name && head[1..] == [];
      }
    }
  }

  /** The value a recognised name ends with, given the node's attributes
      before the pass: the per-name loop run on its own. */
  function ExpectedAttr(attrs: Attrs, name: string, parse: Parser, values: seq<string>): Option<Value>
  {
    var a := ApplyValues(attrs, name, parse, values).0;
    if name in a then Some(a[name]) else None
  }

  /** With distinct names (as `parse_qs` produces), the pass is a per-name
      affair: an unsupported name leaves its attribute as it was, and a
      supported one ends exactly as its own loop leaves it, whatever the
      order of the names. */
  lemma {:induction false} PerNameOutcome(attrs: Attrs, spec: map<string, Parser>, q: ParsedQuery, i: int)
    requires "uri" in attrs
    requires DistinctNames(q)
    requires 0 <= i < |q|
    ensures var r := ValidateOptions(attrs, spec, q);
            var name := q[i].0;
            && (name !in spec ==> (name in r.attrs <==> name in attrs) && (name in attrs ==> r.attrs[name] == attrs[name]))
            && (name in spec ==>
                  var e := ExpectedAttr(attrs, name, spec[name], q[i].1);
                  (name in r.attrs <==> e.Some?) && (e.Some? ==> r.attrs[name] == e.value))
    decreases |q|
  {
    var (name0, values0) := q[0];
    var attrs1 := Step(attrs, spec, name0, values0).attrs;
    var r := ValidateOptions(attrs, spec, q);
    if i == 0 {
      var rest := ValidateOptions(attrs1, spec, q[1..]);
      assert name0 !in Names(q[1..]) by {
        forall j | 0 <= j < |q[1..]| ensures q[1..][j].0 != name0 {
          assert q[1..][j] == q[j + 1];
        }
        NamesIndex(q[1..], name0);
      }
      assert r.attrs == rest.attrs;
    } else {
      assert DistinctNames(q[1..]) by {
        forall a, b | 0 <= a < b < |q[1..]| ensures q[1..][a].0 != q[1..][b].0 {
          assert q[1..][a] == q[a + 1] && q[1..][b] == q[b + 1];
        }
      }
      PerNameOutcome(attrs1, spec, q[1..], i - 1);
      assert q[1..][i - 1] == q[i];
      var name := q[i].0;
      assert name != name0;
      if name in spec {
        ApplyValuesIndependent(attrs, attrs1, name, spec[name], q[i].1);
      }
    }
  }

  /** The per-name loop depends only on the attribute `name` of its input. */
  lemma ApplyValuesIndependent(a: Attrs, b: Attrs, name: string, parse: Parser, values: seq<string>)
    requires (name in a <==> name in b) && (name in a ==> a[name] == b[name])
    ensures var ea := ExpectedAttr(a, name, parse, values);
            var eb := ExpectedAttr(b, name, parse, values);
            ea == eb
  {
  }

  /** An extension with no registered converter has an empty schema: every
      option is unsupported, nothing is assigned, one warning per name. */
  lemma {:induction false} UnregisteredRejectsAll(attrs: Attrs, q: ParsedQuery)
    requires "uri" in attrs
    ensures var r := ValidateOptions(attrs, map[], q);
            r.attrs == attrs && |r.warnings| == |q| && forall i | 0 <= i < |r.warnings| :: r.warnings[i] == Unsupported(q[i].0, attrs["uri"])
    decreases |q|
  {
    if |q| > 0 {
      var r := ValidateOptions(attrs, map[], q);
      var rest := ValidateOptions(attrs, map[], q[1..]);
      UnregisteredRejectsAll(attrs, q[1..]);
      assert r.attrs == rest.attrs;
      assert r.warnings == [Unsupported(q[0].0, attrs["uri"])] + rest.warnings;
      forall i | 1 <= i < |r.warnings| ensures r.warnings[i] == Unsupported(q[i].0, attrs["uri"]) {
        assert r.warnings[i] == rest.warnings[i - 1];
        assert q[1..][i - 1] == q[i];
      }
    }
  }

  // ---------------------------------------------------------------------
  // The pass over the document

  /** `image.get('option', '')` of a well-formed image. */
  function OptionString(attrs: Attrs): string
  {
    if HasStr(attrs, "option") then attrs["option"].s else ""
  }

  /** The schema consulted for an image: its converter's `option_spec`, or
      an empty one when its extension is not registered. */
  function SpecFor(types: Types, uri: string): (spec: map<string, Parser>)
    ensures ExtKey(uri) !in types ==> spec == map[]
    ensures ExtKey(uri) in types ==> spec == types[ExtKey(uri)].handler.optionSpec
  {
    match GetImageextHandler(types, uri)
    case None => map[]
    case Some(h) => h.optionSpec
  }

  /** A tree after the read pass, and the warnings given, in document order. */
  datatype ReadResult = ReadResult(node: Node, warnings: seq<Warning>)

  datatype ReadResults = ReadResults(nodes: seq<Node>, warnings: seq<Warning>)

  /** `on_doctree_read`: every `image` node, in document order, has its
      options validated; `parseQs` stands for `cgi.parse_qs`. Placeholders
      and other elements keep their attributes. */
  function ReadTree(types: Types, parseQs: string -> ParsedQuery, n: Node): (r: ReadResult)
    requires WellFormed(n)
    ensures r.node.kind == n.kind && |r.node.children| == |n.children|
    ensures n.kind != Image ==> r.node.attrs == n.attrs
    ensures n.kind == Image ==> n.attrs.Keys <= r.node.attrs.Keys
    ensures n.kind == Image && ExtKey(Uri(n.attrs)) !in types ==> r.node.attrs == n.attrs
    decreases n
  {
    var own :=
      if n.kind == Image then
        var q := parseQs(OptionString(n.attrs));
        UnregisteredRejectsAll(n.attrs, q);
        ValidateOptions(n.attrs, SpecFor(types, Uri(n.attrs)), q)
      else Validated(n.attrs, []);
    var rest := ReadForest(types, parseQs, n.children);
    ReadResult(Node(n.kind, own.attrs, rest.nodes), own.warnings + rest.warnings)
  }

  function ReadForest(types: Types, parseQs: string -> ParsedQuery, ns: seq<Node>): (r: ReadResults)
    requires AllWellFormed(ns)
    ensures |r.nodes| == |ns|
    decreases ns
  {
    if |ns| == 0 then ReadResults([], [])
    else
      var first := ReadTree(types, parseQs, ns[0]);
      var rest := ReadForest(types, parseQs, ns[1..]);
      ReadResults([first.node] + rest.nodes, first.warnings + rest.warnings)
  }

  /** What the pass does to a tree, everywhere in it: an image's attributes
      become those its own query string validates to against the schema of
      the converter its own extension selects; every other node keeps its
      attributes; kinds and the shape of the tree are kept. */
  predicate ReadShape(types: Types, parseQs: string -> ParsedQuery, n: Node, m: Node)
    decreases n
  {
    && m.kind == n.kind && |m.children| == |n.children|
    && m.attrs == (if n.kind == Image && HasStr(n.attrs, "uri")
                   then ValidateOptions(n.attrs, SpecFor(types, Uri(n.attrs)), parseQs(OptionString(n.attrs))).attrs
                   else n.attrs)
    && forall i | 0 <= i < |n.children| :: ReadShape(types, parseQs, n.children[i], m.children[i])
  }

  lemma {:induction false} ReadKeepsShape(types: Types, parseQs: string -> ParsedQuery, n: Node)
    requires WellFormed(n)
    ensures ReadShape(types, parseQs, n, ReadTree(types, parseQs, n).node)
    decreases n, 1
  {
    ReadKeepsShapeAll(types, parseQs, n.children);
  }

  lemma {:induction false} ReadKeepsShapeAll(types: Types, parseQs: string -> ParsedQuery, ns: seq<Node>)
    requires AllWellFormed(ns)
    ensures var r := ReadForest(types, parseQs, ns).nodes;
            forall i | 0 <= i < |ns| :: ReadShape(types, parseQs, ns[i], r[i])
    decreases ns, 0
  {
    if |ns| > 0 {
      var first := ReadTree(types, parseQs, ns[0]).node;
      var rest := ReadForest(types, parseQs, ns[1..]).nodes;
      ReadForestCons(types, parseQs, ns);
      ReadKeepsShape(types, parseQs, ns[0]);
      ReadKeepsShapeAll(types, parseQs, ns[1..]);
      ReadShapeShift(types, parseQs, ns, first, rest);
    }
  }

  lemma ReadForestCons(types: Types, parseQs: string -> ParsedQuery, ns: seq<Node>)
    requires AllWellFormed(ns) && |ns| > 0
    ensures WellFormed(ns[0]) && AllWellFormed(ns[1..])
    ensures ReadForest(types, parseQs, ns).nodes
              == [ReadTree(types, parseQs, ns[0]).node] + ReadForest(types, parseQs, ns[1..]).nodes
  {
  }

  /** Relating a forest position by position, from its head and its tail. */
  lemma ReadShapeShift(types: Types, parseQs: string -> ParsedQuery, ns: seq<Node>, first: Node, rest: seq<Node>)
    requires |ns| > 0 && |rest| == |ns| - 1
    requires ReadShape(types, parseQs, ns[0], first)
    requires forall i | 0 <= i < |ns[1..]| :: ReadShape(types, parseQs, ns[1..][i], rest[i])
    ensures var r := [first] + rest;
            forall i | 0 <= i < |ns| :: ReadShape(types, parseQs, ns[i], r[i])
  {
    var r := [first] + rest;
    forall i | 1 <= i < |ns|
      ensures ReadShape(types, parseQs, ns[i], r[i])
    {
      var j := i - 1;
      assert ReadShape(types, parseQs, ns[1..][j], rest[j]);
      assert ns[1..][j] == ns[i] && rest[j] == r[i];
    }
  }
}

=== FILE: paths.dfy ===
/** The handful of POSIX path and string operations of the Python standard
    library that the image helper relies on: `posixpath.join` with two
    arguments, `os.path.dirname`, `os.path.splitext`, `str.lower`,
    `str.startswith`/`endswith` and `str.find(...) == -1`.
    Each is written out from its CPython 2 definition, since the helper's
    edge cases (absolute arguments, empty directory names, dot files)
    depend on them. */
module Paths {

  type Path = string

  predicate StartsWith(s: string, prefix: string) {
    |prefix| <= |s| && s[..|prefix|] == prefix
  }

  predicate EndsWith(s: string, suffix: string) {
    |suffix| <= |s| && s[|s| - |suffix|..] == suffix
  }

  /** `sub in s`, i.e. `s.find(sub) != -1`. */
  predicate Contains(s: string, sub: string) {
    exists i | 0 <= i <= |s| :: OccursAt(s, sub, i)
  }

  predicate OccursAt(s: string, sub: string, i: int) {
    0 <= i && i + |sub| <= |s| && s[i..i + |sub|] == sub
  }

  predicate Free(s: string, c: char) {
    forall i | 0 <= i < |s| :: s[i] != c
  }

  /** Python's `s[1:]`: empty for the empty string. */
  function Drop1(s: string): (r: string)
    ensures |s| > 0 ==> s == [s[0]] + r
    ensures |s| == 0 ==> r == ""
  {
    if |s| == 0 then "" else s[1..]
  }

  /** `str.rfind(c)`: the last index holding `c`, or -1. */
  function RFind(s: string, c: char): (i: int)
    ensures -1 <= i < |s|
    ensures 0 <= i ==> s[i] == c
    ensures forall j | i < j < |s| :: s[j] != c
  {
    if |s| == 0 then -1
    else if s[|s| - 1] == c then |s| - 1
    else RFind(s[..|s| - 1], c)
  }

  lemma {:induction false} RFindAppend(s: string, t: string, c: char)
    requires Free(t, c)
    ensures RFind(s + t, c) == RFind(s, c)
    decreases |t|
  {
    if |t| > 0 {
      var t' := t[..|t| - 1];
      assert (s + t)[..|s + t| - 1] == s + t';
      RFindAppend(s, t', c);
    } else {
      assert s + t == s;
    }
  }

  // ---------------------------------------------------------------------
  // Lower-casing: only ASCII letters are folded; the uri is a unicode string, and
  // its case folding beyond ASCII is not modelled

  predicate IsUpper(c: char) { 'A' <= c <= 'Z' }

  predicate NoUpper(s: string) {
    forall i | 0 <= i < |s| :: !IsUpper(s[i])
  }

  function LowerChar(c: char): (d: char)
    ensures !IsUpper(d)
    ensures !IsUpper(c) ==> d == c
  {
    if IsUpper(c) then (c as int + 32) as char else c
  }

  function Lower(s: string): (r: string)
    ensures |r| == |s|
    ensures forall i | 0 <= i < |s| :: r[i] == LowerChar(s[i])
    ensures NoUpper(r)
  {
    seq(|s|, i requires 0 <= i < |s| => LowerChar(s[i]))
  }

  /** Lower-casing works character by character, so it distributes over
      concatenation. */
  lemma LowerAppend(a: string, b: string)
    ensures Lower(a + b) == Lower(a) + Lower(b)
  {
    assert forall i | 0 <= i < |a + b| :: Lower(a + b)[i] == (Lower(a) + Lower(b))[i];
  }

  /** A string without upper-case letters is its own lower-case form. */
  lemma LowerOfNoUpper(s: string)
    requires NoUpper(s)
    ensures Lower(s) == s
  {
  }

  // ---------------------------------------------------------------------
  // posixpath.join(a, b)

  /** `posixpath.join(a, b)`: an absolute `b` replaces `a`; otherwise `b` is
      appended, with a separator unless `a` is empty or already ends in one. */
  function Join(a: Path, b: Path): (r: Path)
    ensures StartsWith(b, "/") ==> r == b
    ensures !StartsWith(b, "/") ==> EndsWith(r, b) && StartsWith(r, a)
    ensures !StartsWith(b, "/") && (a == "" || EndsWith(a, "/")) ==> |r| == |a| + |b|
    ensures !StartsWith(b, "/") && a != "" && !EndsWith(a, "/") ==> |r| == |a| + 1 + |b| && r[|a|] == '/'
  {
    if StartsWith(b, "/") then b
    else if a == "" || EndsWith(a, "/") then a + b
    else a + "/" + b
  }

  /** Joining a relative name to a directory without a trailing slash
      inserts exactly one separator. */
  lemma JoinRelative(a: Path, b: Path)
    requires a != "" && a[|a| - 1] != '/'
    requires b != "" && b[0] != '/'
    ensures Join(a, b) == a + "/" + b
  {
    assert !StartsWith(b, "/") by { assert b[..1] == [b[0]]; }
    assert !EndsWith(a, "/") by { assert a[|a| - 1..] == [a[|a| - 1]]; }
  }

  // ---------------------------------------------------------------------
  // os.path.dirname

  predicate AllSlashes(s: string) {
    forall i | 0 <= i < |s| :: s[i] == '/'
  }

  function RStripSlashes(s: string): (r: string)
    ensures StartsWith(s, r)
    ensures r == "" || r[|r| - 1] != '/'
    ensures forall i | |r| <= i < |s| :: s[i] == '/'
  {
    if |s| > 0 && s[|s| - 1] == '/' then RStripSlashes(s[..|s| - 1]) else s
  }

  /** `os.path.dirname(p)`: everything up to the last `/`, with trailing
      slashes removed unless the head consists of slashes only. */
  function Dirname(p: Path): (r: Path)
    ensures StartsWith(p, r)
    ensures Free(p, '/') ==> r == ""
    ensures r == "" || r[|r| - 1] != '/' || AllSlashes(r)
  {
    var head := p[..RFind(p, '/') + 1];
    if head != "" && !AllSlashes(head) then RStripSlashes(head) else head
  }

  /** Dirname undoes a join with a file name: the directory a document
      lives in is recovered from the joined path. */
  lemma DirnameOfJoin(d: Path, f: Path)
    requires d != "" && d[|d| - 1] != '/'
    requires f != "" && Free(f, '/')
    ensures Dirname(Join(d, f)) == d
  {
    JoinRelative(d, f);
    var p := Join(d, f);
    RFindAppend(d + "/", f, '/');
    assert RFind(d + "/", '/') == |d|;
    var head := p[..|d| + 1];
    assert head == d + "/";
    assert !AllSlashes(head) by {
      assert head[|d| - 1] == d[|d| - 1];
    }
    assert head[..|head| - 1] == d;
  }

  // ---------------------------------------------------------------------
  // os.path.splitext

  /** Some character strictly between `lo` and `hi` is not a dot. */
  predicate HasNonDot(p: string, lo: int, hi: int)
    requires 0 <= lo && hi <= |p|
  {
    exists k | lo <= k < hi :: p[k] != '.'
  }

  /** The file name after the last `/` holds a character other than `.`:
      exactly the names whose last dot starts an extension. */
  predicate BaseHasNonDot(p: string) {
    HasNonDot(p, RFind(p, '/') + 1, |p|)
  }

  /** `os.path.splitext(p)`: the extension starts at the last dot of the
      file name, unless everything before that dot in the file name is
      dots (so `.bashrc` has no extension). */
  function SplitExt(p: Path): (r: (Path, string))
    ensures r.0 + r.1 == p
    ensures r.1 == "" || (r.1[0] == '.' && Free(r.1, '/') && Free(r.1[1..], '.'))
  {
    var sep := RFind(p, '/');
    var dot := RFind(p, '.');
    if dot > sep && HasNonDot(p, sep + 1, dot) then
      assert p[..dot] + p[dot..] == p;
      (p[..dot], p[dot..])
    else
      (p, "")
  }

  /** The key part of an extension (after its dot) holds no dot, no
      separator, and only characters of the path. */
  lemma ExtensionTail(p: Path)
    requires NoUpper(p)
    ensures var key := Drop1(SplitExt(p).1);
            NoUpper(key) && Free(key, '.') && Free(key, '/')
  {
    var (root, ext) := SplitExt(p);
    var key := Drop1(ext);
    if ext != "" {
      forall i | 0 <= i < |key| ensures key[i] == p[|root| + 1 + i] && key[i] == ext[i + 1] {
        assert p == root + ext;
      }
    }
  }

  /** Appending an extension to a root whose file name is not all dots is
      undone by `SplitExt`. */
  lemma SplitExtOfAppended(root: Path, ext: string)
    requires BaseHasNonDot(root)
    requires |ext| > 0 && ext[0] == '.' && Free(ext, '/') && Free(ext[1..], '.')
    ensures SplitExt(root + ext) == (root, ext)
  {
    var p := root + ext;
    RFindAppend(root, ext, '/');
    assert RFind(p, '.') == |root| by {
      assert p[|root|] == '.';
      forall j | |root| < j < |p| ensures p[j] != '.' {
        assert p[j] == ext[1..][j - |root| - 1];
      }
    }
    var sep := RFind(root, '/');
    assert HasNonDot(p, sep + 1, |root|) by {
      var k :| sep + 1 <= k < |root| && root[k] != '.';
      assert p[k] == root[k];
    }
    assert p[..|root|] == root;
    assert p[|root|..] == ext;
  }
}

=== FILE: registry.dfy ===
/** imageext.py: the type registry `app.imageext_types`, which maps a
    file extension without its leading dot to a type name and a converter,
    and its one-time wiring into the Sphinx application. */
module Registry {
  import opened Wrappers
  import opened Paths
  import opened ImageConverter

  datatype TypeEntry = TypeEntry(name: string, handler: Converter)

  type Types = map<string, TypeEntry>

  /** What registering the first type does to the application: the
      placeholder node class is added and three event handlers connected. */
  datatype Wiring = AddPlaceholderNode | ConnectBuilderInited | ConnectDoctreeRead | ConnectDoctreeResolved

  const InitialWiring: seq<Wiring> :=
    [AddPlaceholderNode, ConnectBuilderInited, ConnectDoctreeRead, ConnectDoctreeResolved]

  /** The application as far as registration sees it: `types` is `None`
      while the attribute `imageext_types` does not exist. */
  datatype App = App(types: Option<Types>, wiring: seq<Wiring>)

  /** `ext[1:]` if `ext` starts with a dot: at most one dot is stripped. */
  function NormalizeExt(ext: string): (key: string)
    ensures ext == key || ext == "." + key
    ensures StartsWith(ext, ".") <==> ext == "." + key
  {
    if StartsWith(ext, ".") then ext[1..] else ext
  }

  /** The lookup key of a uri: the extension of the lower-cased uri without
      its dot (empty when the uri has no extension). */
  function ExtKey(uri: string): (key: string)
    ensures Free(key, '.') && Free(key, '/')
    ensures NoUpper(key)
    ensures key == "" <==> SplitExt(Lower(uri)).1 == "" || SplitExt(Lower(uri)).1 == "."
  {
    var lower := Lower(uri);
    ExtensionTail(lower);
    Drop1(SplitExt(lower).1)
  }

  /** `get_imageext_handler(app, uri)`. */
  function GetImageextHandler(types: Types, uri: string): (r: Option<Converter>)
    ensures r.Some? <==> ExtKey(uri) in types
    ensures r.Some? ==> r.value == types[ExtKey(uri)].handler
  {
    var key := ExtKey(uri);
    if key in types then Some(types[key].handler) else None
  }

  /** `add_image_type(app, name, ext, handler)`. */
  function AddImageType(app: App, name: string, ext: string, handler: Converter): (r: App)
    // the registry exists afterwards; wiring happens only when it did not before
    ensures r.types.Some?
    ensures app.types.None? ==> r.wiring == app.wiring + InitialWiring
    ensures app.types.Some? ==> r.wiring == app.wiring
    // the entry for the normalised key is set; every other entry is kept
    ensures NormalizeExt(ext) in r.types.value
    ensures r.types.value[NormalizeExt(ext)] == TypeEntry(name, handler)
    ensures app.types.None? ==> r.types.value.Keys == {NormalizeExt(ext)}
    ensures app.types.Some? ==> r.types.value.Keys == app.types.value.Keys + {NormalizeExt(ext)}
    ensures app.types.Some? ==>
      forall k | k in app.types.value && k != NormalizeExt(ext) :: r.types.value[k] == app.types.value[k]
  {
    var app' := if app.types.None? then App(Some(map[]), app.wiring + InitialWiring) else app;
    app'.(types := Some(app'.types.value[NormalizeExt(ext) := TypeEntry(name, handler)]))
  }

  /** Registering several extensions for one type, one call each. */
  function AddImageTypes(app: App, name: string, exts: seq<string>, handler: Converter): (r: App)
    ensures |exts| == 0 ==> r == app
    // the registry exists after the first call, and is wired at most once
    ensures |exts| > 0 ==> r.types.Some?
    ensures r.wiring == (if app.types.None? && |exts| > 0 then app.wiring + InitialWiring else app.wiring)
    // its keys are the old ones and the normalised extensions, no others
    ensures r.types.Some? ==>
      r.types.value.Keys == (if app.types.Some? then app.types.value.Keys else {}) +
                            set i | 0 <= i < |exts| :: NormalizeExt(exts[i])
    decreases |exts|
  {
    if |exts| == 0 then app
    else AddImageTypes(AddImageType(app, name, exts[0], handler), name, exts[1..], handler)
  }

  /** However many registrations follow, the application is wired exactly
      once, and every registered extension routes to the handler. */
  lemma {:induction false} RegistrationWiresOnce(app: App, name: string, exts: seq<string>, handler: Converter)
    requires |exts| > 0
    ensures var r := AddImageTypes(app, name, exts, handler);
            && r.types.Some?
            && r.wiring == (if app.types.None? then app.wiring + InitialWiring else app.wiring)
            && forall i | 0 <= i < |exts| :: NormalizeExt(exts[i]) in r.types.value &&
                 r.types.value[NormalizeExt(exts[i])] == TypeEntry(name, handler)
    decreases |exts|
  {
    var a1 := AddImageType(app, name, exts[0], handler);
    if |exts| > 1 {
      RegistrationWiresOnce(a1, name, exts[1..], handler);
      var r := AddImageTypes(a1, name, exts[1..], handler);
      assert NormalizeExt(exts[0]) in r.types.value && r.types.value[NormalizeExt(exts[0])] == TypeEntry(name, handler) by {
        EntryKept(a1, name, exts[1..], handler, NormalizeExt(exts[0]));
      }
      forall i | 1 <= i < |exts|
        ensures NormalizeExt(exts[i]) in r.types.value && r.types.value[NormalizeExt(exts[i])] == TypeEntry(name, handler)
      {
        assert exts[i] == exts[1..][i - 1];
      }
    }
  }

  /** Registration never removes an entry. An entry keeps its value
      unless one of the extensions re-registers its key, in which case it
      takes the new type name and handler. */
  lemma {:induction false} EntryKept(app: App, name: string, exts: seq<string>, handler: Converter, key: string)
    requires app.types.Some? && key in app.types.value
    ensures var r := AddImageTypes(app, name, exts, handler);
            && r.types.Some? && key in r.types.value
            && (r.types.value[key] == app.types.value[key] || r.types.value[key] == TypeEntry(name, handler))
            && ((forall i | 0 <= i < |exts| :: NormalizeExt(exts[i]) != key) ==> r.types.value[key] == app.types.value[key])
    decreases |exts|
  {
    if |exts| > 0 {
      var a1 := AddImageType(app, name, exts[0], handler);
      EntryKept(a1, name, exts[1..], handler, key);
      assert forall i | 0 <= i < |exts[1..]| :: exts[1..][i] == exts[i + 1];
    }
  }

  /** After `add_image_type`, every uri whose extension matches finds the
      new handler, and every other uri finds what it found before. */
  lemma LookupAfterAdd(app: App, name: string, ext: string, handler: Converter, uri: string)
    ensures var r := AddImageType(app, name, ext, handler);
            && (ExtKey(uri) == NormalizeExt(ext) ==> GetImageextHandler(r.types.value, uri) == Some(handler))
            && (ExtKey(uri) != NormalizeExt(ext) && app.types.Some? ==>
                  GetImageextHandler(r.types.value, uri) == GetImageextHandler(app.types.value, uri))
            && (ExtKey(uri) != NormalizeExt(ext) && app.types.None? ==>
                  GetImageextHandler(r.types.value, uri) == None)
  {
  }

  /** The key of a uri made of a root and `.e` is `e` itself, whatever the
      case of the root, when `e` is a lower-case key without dot or
      separator and the root's file name is not all dots. */
  lemma ExtKeyOfAppended(root: string, e: string)
    requires BaseHasNonDot(Lower(root))
    requires NoUpper(e) && Free(e, '.') && Free(e, '/')
    ensures ExtKey(root + "." + e) == e
  {
    LowerAppend(root, "." + e);
    assert root + "." + e == root + ("." + e);
    LowerOfNoUpper("." + e);
    assert ("." + e)[1..] == e;
    SplitExtOfAppended(Lower(root), "." + e);
  }

  /** A type registered as `.e` is found for every uri `root.e`, in any
      registry state before the call. */
  lemma RegisteredExtensionFound(app: App, name: string, e: string, handler: Converter, root: string)
    requires BaseHasNonDot(Lower(root))
    requires NoUpper(e) && Free(e, '.') && Free(e, '/')
    ensures GetImageextHandler(AddImageType(app, name, "." + e, handler).types.value, root + "." + e) == Some(handler)
  {
    ExtKeyOfAppended(root, e);
    assert NormalizeExt("." + e) == e;
    LookupAfterAdd(app, name, "." + e, handler, root + "." + e);
  }

  /** `add_image_type` does not lower-case: an extension registered with an
      upper-case letter is a key that no uri can reach. */
  lemma UpperCaseKeyUnreachable(key: string, uri: string)
    requires !NoUpper(key)
    ensures ExtKey(uri) != key
  {
  }

  /** Only the first of several leading dots is stripped. */
  lemma NormalizeExtExamples()
    ensures NormalizeExt(".rst") == "rst"
    ensures NormalizeExt("..rst") == ".rst"
  {
  }
}

=== FILE: resolve.dfy ===
/** imageext.py, `on_doctree_resolved`: the two traversals that hand nodes to
    converters. The first visits every `image` whose extension is
    registered; the second visits every placeholder once per registry entry
    whose type name matches. Both walk a snapshot of the tree in document
    order, so a replacement node is not visited again in the same pass. */
module Resolve {
  import opened Wrappers
  import opened Utils
  import opened Nodes
  import opened ImageConverter
  import opened Registry

  /** The state threaded through a pass: the filesystem, the rewritten
      tree and the number of `convert` calls made. */
  datatype Outcome = Outcome(fs: FileSystem, node: Node, conversions: nat)

  datatype ForestOutcome = ForestOutcome(fs: FileSystem, nodes: seq<Node>, conversions: nat)

  function Calls(v: VisitResult): nat {
    if v.converted then 1 else 0
  }

  // ---------------------------------------------------------------------
  // First traversal: registered `image` nodes

  /** An `image` node whose lower-cased extension has a registry entry. */
  predicate Registered(types: Types, n: Node) {
    n.kind == Image && HasStr(n.attrs, "uri") && ExtKey(Uri(n.attrs)) in types
  }

  /** The converter the registry holds for a registered image. */
  function HandlerOf(types: Types, n: Node): Converter
    requires Registered(types, n)
  {
    types[ExtKey(Uri(n.attrs))].handler
  }

  /** The first loop over `image` nodes. A replaced node loses its
      children, but they were already in the snapshot and are still visited
      for their effect on the filesystem. */
  function ConvertImages(env: Env, types: Types, docname: string, fs: FileSystem, n: Node): (r: Outcome)
    requires WellFormed(n)
    ensures WellFormed(r.node)
    ensures r.conversions <= Count(n, Image)
    ensures n.kind != Image ==> r.node.kind == n.kind && r.node.attrs == n.attrs && |r.node.children| == |n.children|
    ensures n.kind == Image && ExtKey(Uri(n.attrs)) !in types ==> r.node.attrs == n.attrs
    ensures r.node.kind == n.kind
    decreases n
  {
    var v := if Registered(types, n) then Some(Visit(env, HandlerOf(types, n), docname, fs, n.attrs)) else None;
    var fs1 := if v.Some? then v.value.fs else fs;
    var rest := ConvertImagesAll(env, types, docname, fs1, n.children);
    var calls := (if v.Some? then Calls(v.value) else 0) + rest.conversions;
    if v.Some? && v.value.replacement.Some? then
      VisitReplacementWellFormed(env, HandlerOf(types, n), docname, fs, n.attrs);
      Outcome(rest.fs, v.value.replacement.value, calls)
    else
      Outcome(rest.fs, Node(n.kind, n.attrs, rest.nodes), calls)
  }

  function ConvertImagesAll(env: Env, types: Types, docname: string, fs: FileSystem, ns: seq<Node>): (r: ForestOutcome)
    requires AllWellFormed(ns)
    ensures AllWellFormed(r.nodes)
    ensures |r.nodes| == |ns|
    ensures r.conversions <= CountAll(ns, Image)
    decreases ns
  {
    if |ns| == 0 then ForestOutcome(fs, [], 0)
    else
      var first := ConvertImages(env, types, docname, fs, ns[0]);
      var rest := ConvertImagesAll(env, types, docname, first.fs, ns[1..]);
      assert ([first.node] + rest.nodes)[1..] == rest.nodes;
      ForestOutcome(rest.fs, [first.node] + rest.nodes, first.conversions + rest.conversions)
  }

  /** How the first loop may change a tree: a registered image may give way
      to the concrete image its own converter refers to; every other node
      keeps its kind and attributes, and its children change in the same
      way, position by position. */
  predicate ImagePassShape(env: Env, types: Types, docname: string, n: Node, m: Node)
    decreases n
  {
    || (Registered(types, n) && m == Replacement(n.attrs, ReferencePath(env, HandlerOf(types, n), docname, n.attrs)))
    || (&& m.kind == n.kind && m.attrs == n.attrs && |m.children| == |n.children|
        && forall i | 0 <= i < |n.children| :: ImagePassShape(env, types, docname, n.children[i], m.children[i]))
  }

  /** Whatever the filesystem, the first loop reshapes a tree only as
      `ImagePassShape` allows: only registered images are handed to a
      converter, and each to the one its extension selects. */
  lemma {:induction false} ImagePassKeepsShape(env: Env, types: Types, docname: string, fs: FileSystem, n: Node)
    requires WellFormed(n)
    ensures ImagePassShape(env, types, docname, n, ConvertImages(env, types, docname, fs, n).node)
    decreases n, 1
  {
    var fs1 := if Registered(types, n) then Visit(env, HandlerOf(types, n), docname, fs, n.attrs).fs else fs;
    ImagePassKeepsShapeAll(env, types, docname, fs1, n.children);
  }

  lemma {:induction false} ImagePassKeepsShapeAll(env: Env, types: Types, docname: string, fs: FileSystem, ns: seq<Node>)
    requires AllWellFormed(ns)
    ensures var r := ConvertImagesAll(env, types, docname, fs, ns);
            forall i | 0 <= i < |ns| :: ImagePassShape(env, types, docname, ns[i], r.nodes[i])
    decreases ns, 0
  {
    if |ns| > 0 {
      var first := ConvertImages(env, types, docname, fs, ns[0]);
      var rest := ConvertImagesAll(env, types, docname, first.fs, ns[1..]);
      var r := ConvertImagesAll(env, types, docname, fs, ns);
      assert r.nodes == [first.node] + rest.nodes;
      ImagePassKeepsShape(env, types, docname, fs, ns[0]);
      ImagePassKeepsShapeAll(env, types, docname, first.fs, ns[1..]);
      forall i | 1 <= i < |ns|
        ensures ImagePassShape(env, types, docname, ns[i], r.nodes[i])
      {
        assert ns[i] == ns[1..][i - 1] && r.nodes[i] == rest.nodes[i - 1];
      }
    }
  }

  // ---------------------------------------------------------------------
  // Second traversal: placeholders

  predicate Distinct(keys: seq<string>) {
    forall i, j | 0 <= i < j < |keys| :: keys[i] != keys[j]
  }

  /** `order` is an iteration order of the registry: every key exactly once. */
  predicate Enumerates(order: seq<string>, types: Types) {
    Distinct(order) && (forall k | k in order :: k in types) && (forall k | k in types :: k in order)
  }

  /** The keys in `keys` whose registry entry carries the type name `typeName`. */
  function MatchSet(types: Types, keys: seq<string>, typeName: string): set<string> {
    set k | k in keys && k in types && types[k].name == typeName
  }

  /** The registry entries carrying the type name `typeName`. */
  function Matches(types: Types, typeName: string): set<string> {
    set k | k in types && types[k].name == typeName
  }

  lemma MatchSetCons(types: Types, keys: seq<string>, typeName: string)
    requires |keys| > 0 && Distinct(keys)
    ensures Distinct(keys[1..])
    ensures |MatchSet(types, keys, typeName)| ==
            |MatchSet(types, keys[1..], typeName)| + (if keys[0] in types && types[keys[0]].name == typeName then 1 else 0)
  {
    assert keys == [keys[0]] + keys[1..];
    assert keys[0] !in keys[1..] by {
      forall j | 0 <= j < |keys[1..]| ensures keys[1..][j] != keys[0] {
        assert keys[1..][j] == keys[j + 1];
      }
    }
    if keys[0] in types && types[keys[0]].name == typeName {
      assert MatchSet(types, keys, typeName) == MatchSet(types, keys[1..], typeName) + {keys[0]};
    } else {
      assert MatchSet(types, keys, typeName) == MatchSet(types, keys[1..], typeName);
    }
  }

  /** `m` is the concrete image that the converter of some entry with type
      name `typeName` refers to. */
  predicate ReplacedByEntry(env: Env, types: Types, docname: string, typeName: string, attrs: Attrs, m: Node)
    requires HasStr(attrs, "uri")
  {
    exists k | k in types && types[k].name == typeName ::
      m == Replacement(attrs, ReferencePath(env, types[k].handler, docname, attrs))
  }

  /** The state of the inner loop: the filesystem, the first replacement,
      and how many visits and conversions were made. */
  datatype Matched = Matched(fs: FileSystem, replacement: Option<Node>, visits: nat, conversions: nat)

  /** The inner loop over registry entries, taken in the order `keys`.
      Every entry with the placeholder's type name visits it; the first
      replacement is the one that lands in the tree. */
  function VisitEntries(env: Env, types: Types, keys: seq<string>, docname: string,
                        fs: FileSystem, attrs: Attrs, typeName: string): (r: Matched)
    requires HasStr(attrs, "uri")
    requires Distinct(keys)
    ensures r.visits == |MatchSet(types, keys, typeName)|
    ensures r.conversions <= r.visits
    ensures r.visits == 0 ==> r == Matched(fs, None, 0, 0)
    ensures r.replacement.Some? ==> ReplacedByEntry(env, types, docname, typeName, attrs, r.replacement.value)
    decreases |keys|
  {
    if |keys| == 0 then
      assert MatchSet(types, keys, typeName) == {};
      Matched(fs, None, 0, 0)
    else
      MatchSetCons(types, keys, typeName);
      var key := keys[0];
      if key in types && types[key].name == typeName then
        var v := Visit(env, types[key].handler, docname, fs, attrs);
        var rest := VisitEntries(env, types, keys[1..], docname, v.fs, attrs, typeName);
        Matched(rest.fs, if v.replacement.Some? then v.replacement else rest.replacement,
                1 + rest.visits, Calls(v) + rest.conversions)
      else
        VisitEntries(env, types, keys[1..], docname, fs, attrs, typeName)
  }

  /** The inner loop over `app.imageext_types.values()`, in the registry's
      iteration order `order`: the placeholder is visited once per entry
      carrying its type name, and left alone when there is none. */
  function VisitMatching(env: Env, types: Types, order: seq<string>, docname: string,
                         fs: FileSystem, attrs: Attrs, typeName: string): (r: Matched)
    requires HasStr(attrs, "uri")
    requires Enumerates(order, types)
    ensures r.visits == |Matches(types, typeName)|
    ensures r.conversions <= r.visits
    ensures r.visits == 0 ==> r == Matched(fs, None, 0, 0)
    ensures r.replacement.Some? ==> ReplacedByEntry(env, types, docname, typeName, attrs, r.replacement.value)
  {
    assert MatchSet(types, order, typeName) == Matches(types, typeName);
    VisitEntries(env, types, order, docname, fs, attrs, typeName)
  }

  /** The type name a placeholder carries. */
  function TypeName(n: Node): string
    requires HasStr(n.attrs, "imageext_type")
  {
    n.attrs["imageext_type"].s
  }

  /** The second loop, over placeholder nodes. */
  function ConvertPlaceholders(env: Env, types: Types, order: seq<string>, docname: string,
                               fs: FileSystem, n: Node): (r: Outcome)
    requires WellFormed(n)
    requires Enumerates(order, types)
    ensures n.kind != Placeholder ==> r.node.kind == n.kind && r.node.attrs == n.attrs && |r.node.children| == |n.children|
    ensures Count(n, Placeholder) == 0 ==> r == Outcome(fs, n, 0)
    decreases n
  {
    var v := if n.kind == Placeholder then Some(VisitMatching(env, types, order, docname, fs, n.attrs, TypeName(n))) else None;
    var fs1 := if v.Some? then v.value.fs else fs;
    var rest := ConvertPlaceholdersAll(env, types, order, docname, fs1, n.children);
    var calls := (if v.Some? then v.value.conversions else 0) + rest.conversions;
    if v.Some? && v.value.replacement.Some? then
      Outcome(rest.fs, v.value.replacement.value, calls)
    else
      Outcome(rest.fs, Node(n.kind, n.attrs, rest.nodes), calls)
  }

  function ConvertPlaceholdersAll(env: Env, types: Types, order: seq<string>, docname: string,
                                  fs: FileSystem, ns: seq<Node>): (r: ForestOutcome)
    requires AllWellFormed(ns)
    requires Enumerates(order, types)
    ensures |r.nodes| == |ns|
    ensures CountAll(ns, Placeholder) == 0 ==> r == ForestOutcome(fs, ns, 0)
    decreases ns
  {
    if |ns| == 0 then ForestOutcome(fs, [], 0)
    else
      var first := ConvertPlaceholders(env, types, order, docname, fs, ns[0]);
      var rest := ConvertPlaceholdersAll(env, types, order, docname, first.fs, ns[1..]);
      assert CountAll(ns, Placeholder) == 0 ==> [first.node] + rest.nodes == ns;
      ForestOutcome(rest.fs, [first.node] + rest.nodes, first.conversions + rest.conversions)
  }

  /** How the second loop may change a tree: a placeholder may give way to
      the concrete image of some entry carrying its type name; every other
      node keeps its kind and attributes, and its children change in the
      same way, position by position. */
  predicate PlaceholderPassShape(env: Env, types: Types, docname: string, n: Node, m: Node)
    decreases n
  {
    || (&& n.kind == Placeholder && HasStr(n.attrs, "uri") && HasStr(n.attrs, "imageext_type")
        && ReplacedByEntry(env, types, docname, TypeName(n), n.attrs, m))
    || (&& m.kind == n.kind && m.attrs == n.attrs && |m.children| == |n.children|
        && forall i | 0 <= i < |n.children| :: PlaceholderPassShape(env, types, docname, n.children[i], m.children[i]))
  }

  lemma {:induction false} PlaceholderPassKeepsShape(env: Env, types: Types, order: seq<string>, docname: string,
                                                     fs: FileSystem, n: Node)
    requires WellFormed(n)
    requires Enumerates(order, types)
    ensures PlaceholderPassShape(env, types, docname, n, ConvertPlaceholders(env, types, order, docname, fs, n).node)
    decreases n, 1
  {
    var fs1 := if n.kind == Placeholder then VisitMatching(env, types, order, docname, fs, n.attrs, TypeName(n)).fs else fs;
    PlaceholderPassKeepsShapeAll(env, types, order, docname, fs1, n.children);
  }

  lemma {:induction false} PlaceholderPassKeepsShapeAll(env: Env, types: Types, order: seq<string>, docname: string,
                                                        fs: FileSystem, ns: seq<Node>)
    requires AllWellFormed(ns)
    requires Enumerates(order, types)
    ensures var r := ConvertPlaceholdersAll(env, types, order, docname, fs, ns);
            forall i | 0 <= i < |ns| :: PlaceholderPassShape(env, types, docname, ns[i], r.nodes[i])
    decreases ns, 0
  {
    if |ns| > 0 {
      var first := ConvertPlaceholders(env, types, order, docname, fs, ns[0]);
      var rest := ConvertPlaceholdersAll(env, types, order, docname, first.fs, ns[1..]);
      var r := ConvertPlaceholdersAll(env, types, order, docname, fs, ns);
      assert r.nodes == [first.node] + rest.nodes;
      PlaceholderPassKeepsShape(env, types, order, docname, fs, ns[0]);
      PlaceholderPassKeepsShapeAll(env, types, order, docname, first.fs, ns[1..]);
      forall i | 1 <= i < |ns|
        ensures PlaceholderPassShape(env, types, docname, ns[i], r.nodes[i])
      {
        assert ns[i] == ns[1..][i - 1] && r.nodes[i] == rest.nodes[i - 1];
      }
    }
  }

  /** `on_doctree_resolved(app, doctree, docname)`: both traversals in
      turn, the second over the tree the first produced. */
  function OnDoctreeResolved(env: Env, types: Types, order: seq<string>, docname: string,
                             fs: FileSystem, doctree: Node): (r: Outcome)
    requires WellFormed(doctree)
    requires Enumerates(order, types)
    ensures doctree.kind != Placeholder ==> r.node.kind == doctree.kind
    ensures var mid := ConvertImages(env, types, docname, fs, doctree).node;
            && ImagePassShape(env, types, docname, doctree, mid)
            && PlaceholderPassShape(env, types, docname, mid, r.node)
  {
    var first := ConvertImages(env, types, docname, fs, doctree);
    var second := ConvertPlaceholders(env, types, order, docname, first.fs, first.node);
    ImagePassKeepsShape(env, types, docname, fs, doctree);
    PlaceholderPassKeepsShape(env, types, order, docname, first.fs, first.node);
    Outcome(second.fs, second.node, first.conversions + second.conversions)
  }

  // ---------------------------------------------------------------------
  // Properties

  /** With nothing registered, resolving a document changes nothing and
      converts nothing. */
  lemma EmptyRegistryIsIdentity(env: Env, docname: string, fs: FileSystem, n: Node)
    requires WellFormed(n)
    ensures Enumerates([], map[])
    ensures OnDoctreeResolved(env, map[], [], docname, fs, n) == Outcome(fs, n, 0)
  {
    EmptyRegistryKeepsImages(env, docname, fs, n);
    EmptyRegistryKeepsPlaceholders(env, docname, fs, n);
  }

  lemma {:induction false} EmptyRegistryKeepsImages(env: Env, docname: string, fs: FileSystem, n: Node)
    requires WellFormed(n)
    ensures ConvertImages(env, map[], docname, fs, n) == Outcome(fs, n, 0)
    decreases n, 1
  {
    EmptyRegistryKeepsImagesAll(env, docname, fs, n.children);
  }

  lemma {:induction false} EmptyRegistryKeepsImagesAll(env: Env, docname: string, fs: FileSystem, ns: seq<Node>)
    requires AllWellFormed(ns)
    ensures ConvertImagesAll(env, map[], docname, fs, ns) == ForestOutcome(fs, ns, 0)
    decreases ns, 0
  {
    if |ns| > 0 {
      EmptyRegistryKeepsImages(env, docname, fs, ns[0]);
      EmptyRegistryKeepsImagesAll(env, docname, fs, ns[1..]);
      var first := ConvertImages(env, map[], docname, fs, ns[0]);
      var rest := ConvertImagesAll(env, map[], docname, first.fs, ns[1..]);
      assert ConvertImagesAll(env, map[], docname, fs, ns)
               == ForestOutcome(rest.fs, [first.node] + rest.nodes, first.conversions + rest.conversions);
      assert [ns[0]] + ns[1..] == ns;
    }
  }

  lemma {:induction false} EmptyRegistryKeepsPlaceholders(env: Env, docname: string, fs: FileSystem, n: Node)
    requires WellFormed(n)
    ensures Enumerates([], map[])
    ensures ConvertPlaceholders(env, map[], [], docname, fs, n) == Outcome(fs, n, 0)
    decreases n, 1
  {
    if n.kind == Placeholder {
      assert Matches(map[], TypeName(n)) == {};
    }
    EmptyRegistryKeepsPlaceholdersAll(env, docname, fs, n.children);
  }

  lemma {:induction false} EmptyRegistryKeepsPlaceholdersAll(env: Env, docname: string, fs: FileSystem, ns: seq<Node>)
    requires AllWellFormed(ns)
    ensures Enumerates([], map[])
    ensures ConvertPlaceholdersAll(env, map[], [], docname, fs, ns) == ForestOutcome(fs, ns, 0)
    decreases ns, 0
  {
    if |ns| > 0 {
      EmptyRegistryKeepsPlaceholders(env, docname, fs, ns[0]);
      EmptyRegistryKeepsPlaceholdersAll(env, docname, fs, ns[1..]);
      var first := ConvertPlaceholders(env, map[], [], docname, fs, ns[0]);
      var rest := ConvertPlaceholdersAll(env, map[], [], docname, first.fs, ns[1..]);
      assert ConvertPlaceholdersAll(env, map[], [], docname, fs, ns)
               == ForestOutcome(rest.fs, [first.node] + rest.nodes, first.conversions + rest.conversions);
      assert [ns[0]] + ns[1..] == ns;
    }
  }

  /** The first pass over a registered image leaf is one visit. */
  lemma LeafImagePass(env: Env, types: Types, docname: string, fs: FileSystem, attrs: Attrs)
    requires HasStr(attrs, "uri") && ("option" in attrs ==> attrs["option"].Str?)
    requires ExtKey(Uri(attrs)) in types
    ensures var v := Visit(env, types[ExtKey(Uri(attrs))].handler, docname, fs, attrs);
            v.replacement.Some? ==>
              ConvertImages(env, types, docname, fs, Node(Image, attrs, [])) == Outcome(v.fs, v.replacement.value, Calls(v))
  {
    var conv := types[ExtKey(Uri(attrs))].handler;
    var v := Visit(env, conv, docname, fs, attrs);
    var rest := ConvertImagesAll(env, types, docname, v.fs, []);
    assert rest == ForestOutcome(v.fs, [], 0);
  }

  /** The first pass over a document holding a single registered image
      amounts to one visit of that image. */
  lemma SingleImagePass(env: Env, types: Types, docname: string, fs: FileSystem,
                        tag: string, top: Attrs, attrs: Attrs)
    requires HasStr(attrs, "uri")
    requires WellFormed(Node(Element(tag), top, [Node(Image, attrs, [])]))
    requires ExtKey(Uri(attrs)) in types
    ensures var v := Visit(env, types[ExtKey(Uri(attrs))].handler, docname, fs, attrs);
            v.replacement.Some? ==>
              ConvertImages(env, types, docname, fs, Node(Element(tag), top, [Node(Image, attrs, [])]))
                == Outcome(v.fs, Node(Element(tag), top, [v.replacement.value]), Calls(v))
  {
    var image := Node(Image, attrs, []);
    OnlyChildWellFormed(Element(tag), top, image);
    LeafImagePass(env, types, docname, fs, attrs);
    ForestOfOne(env, types, docname, fs, image);
    ElementPass(env, types, docname, fs, tag, top, [image]);
  }

  /** A one-element sibling list is processed as its element. */
  lemma ForestOfOne(env: Env, types: Types, docname: string, fs: FileSystem, n: Node)
    requires WellFormed(n)
    ensures AllWellFormed([n])
    ensures var f := ConvertImages(env, types, docname, fs, n);
            ConvertImagesAll(env, types, docname, fs, [n]) == ForestOutcome(f.fs, [f.node], f.conversions)
  {
    assert [n][1..] == [];
  }

  /** An element other than an image is processed as its children. */
  lemma ElementPass(env: Env, types: Types, docname: string, fs: FileSystem, tag: string, top: Attrs, ns: seq<Node>)
    requires AllWellFormed(ns)
    ensures WellFormed(Node(Element(tag), top, ns))
    ensures var f := ConvertImagesAll(env, types, docname, fs, ns);
            ConvertImages(env, types, docname, fs, Node(Element(tag), top, ns)) == Outcome(f.fs, Node(Element(tag), top, f.nodes), f.conversions)
  {
  }

  /** A document whose only child is a resolved image leaf has no
      placeholder: the second pass leaves it alone. */
  lemma NoPlaceholderPass(env: Env, types: Types, order: seq<string>, docname: string, fs: FileSystem,
                          tag: string, top: Attrs, m: Node)
    requires WellFormed(Node(Element(tag), top, [m]))
    requires Enumerates(order, types)
    requires m.kind == Image && m.children == []
    ensures ConvertPlaceholders(env, types, order, docname, fs, Node(Element(tag), top, [m]))
              == Outcome(fs, Node(Element(tag), top, [m]), 0)
  {
    assert [m][1..] == [];
    assert Count(m, Placeholder) == 0;
    assert CountAll([m], Placeholder) == 0;
  }

  /** Rebuilding a document that holds one registered image: once a first
      build has converted it successfully and left the artifact in place, a
      second build from the same source tree converts nothing, leaves every
      mtime as it was and yields the same resolved tree. */
  lemma RebuildIsIdempotent(env: Env, types: Types, order: seq<string>, docname: string,
                            fs: FileSystem, tag: string, top: Attrs, attrs: Attrs)
    requires HasStr(attrs, "uri")
    requires WellFormed(Node(Element(tag), top, [Node(Image, attrs, [])]))
    requires Enumerates(order, types)
    requires ExtKey(Uri(attrs)) in types
    requires var conv := types[ExtKey(Uri(attrs))].handler;
             var v := Visit(env, conv, docname, fs, attrs);
             && v.replacement.Some?
             && (SourcePath(env, attrs) in v.fs ==> ArtifactPath(env, conv, docname, attrs) in v.fs)
    ensures var doc := Node(Element(tag), top, [Node(Image, attrs, [])]);
            var r1 := OnDoctreeResolved(env, types, order, docname, fs, doc);
            var r2 := OnDoctreeResolved(env, types, order, docname, r1.fs, doc);
            r2.conversions == 0 && r2.fs == r1.fs && r2.node == r1.node
  {
    var conv := types[ExtKey(Uri(attrs))].handler;
    var doc := Node(Element(tag), top, [Node(Image, attrs, [])]);
    var v1 := Visit(env, conv, docname, fs, attrs);
    VisitIdempotent(env, conv, docname, fs, attrs);
    var m := v1.replacement.value;
    var resolved := Node(Element(tag), top, [m]);
    SingleImagePass(env, types, docname, fs, tag, top, attrs);
    SingleImagePass(env, types, docname, v1.fs, tag, top, attrs);
    assert WellFormed(resolved) by {
      assert ConvertImages(env, types, docname, fs, doc).node == resolved;
    }
    NoPlaceholderPass(env, types, order, docname, v1.fs, tag, top, m);
  }

  /** When exactly one entry, at position `j` of the iteration order,
      carries the placeholder's type name, the inner loop is that one
      entry's visit. */
  lemma {:induction false} OneEntryVisits(env: Env, types: Types, keys: seq<string>, docname: string,
                                          fs: FileSystem, attrs: Attrs, typeName: string, j: int)
    requires HasStr(attrs, "uri") && Distinct(keys)
    requires 0 <= j < |keys| && keys[j] in types && types[keys[j]].name == typeName
    requires forall i | 0 <= i < |keys| && i != j :: keys[i] !in types || types[keys[i]].name != typeName
    ensures var v := Visit(env, types[keys[j]].handler, docname, fs, attrs);
            VisitEntries(env, types, keys, docname, fs, attrs, typeName) == Matched(v.fs, v.replacement, 1, Calls(v))
    decreases |keys|
  {
    MatchSetCons(types, keys, typeName);
    if j == 0 {
      assert MatchSet(types, keys[1..], typeName) == {} by {
        forall k | k in keys[1..] ensures !(k in types && types[k].name == typeName) {
          var i :| 0 <= i < |keys[1..]| && keys[1..][i] == k;
          assert keys[i + 1] == k;
        }
      }
    } else {
      forall i | 0 <= i < |keys[1..]| && i != j - 1
        ensures keys[1..][i] !in types || types[keys[1..][i]].name != typeName
      {
        assert keys[1..][i] == keys[i + 1];
      }
      OneEntryVisits(env, types, keys[1..], docname, fs, attrs, typeName, j - 1);
    }
  }

  /** The first pass leaves a document whose only child is a placeholder
      leaf alone: a placeholder is not an image. */
  lemma PlaceholderDocImagePass(env: Env, types: Types, docname: string, fs: FileSystem,
                                tag: string, top: Attrs, attrs: Attrs)
    requires WellFormed(Node(Element(tag), top, [Node(Placeholder, attrs, [])]))
    ensures ConvertImages(env, types, docname, fs, Node(Element(tag), top, [Node(Placeholder, attrs, [])]))
              == Outcome(fs, Node(Element(tag), top, [Node(Placeholder, attrs, [])]), 0)
  {
    var p := Node(Placeholder, attrs, []);
    OnlyChildWellFormed(Element(tag), top, p);
    assert ConvertImagesAll(env, types, docname, fs, []) == ForestOutcome(fs, [], 0);
    ForestOfOne(env, types, docname, fs, p);
    ElementPass(env, types, docname, fs, tag, top, [p]);
  }

  /** The second pass over a document whose only child is a placeholder
      leaf puts the inner loop's replacement in its place. */
  lemma PlaceholderDocPass(env: Env, types: Types, order: seq<string>, docname: string, fs: FileSystem,
                           tag: string, top: Attrs, attrs: Attrs)
    requires HasStr(attrs, "uri") && HasStr(attrs, "imageext_type")
    requires WellFormed(Node(Element(tag), top, [Node(Placeholder, attrs, [])]))
    requires Enumerates(order, types)
    ensures var m := VisitMatching(env, types, order, docname, fs, attrs, attrs["imageext_type"].s);
            m.replacement.Some? ==>
              ConvertPlaceholders(env, types, order, docname, fs, Node(Element(tag), top, [Node(Placeholder, attrs, [])]))
                == Outcome(m.fs, Node(Element(tag), top, [m.replacement.value]), m.conversions)
  {
    var p := Node(Placeholder, attrs, []);
    OnlyChildWellFormed(Element(tag), top, p);
    var m := VisitMatching(env, types, order, docname, fs, attrs, attrs["imageext_type"].s);
    assert ConvertPlaceholdersAll(env, types, order, docname, m.fs, []) == ForestOutcome(m.fs, [], 0);
    assert [p][1..] == [];
    var leaf := ConvertPlaceholders(env, types, order, docname, fs, p);
    assert ConvertPlaceholdersAll(env, types, order, docname, leaf.fs, []) == ForestOutcome(leaf.fs, [], 0);
  }

  /** Rebuilding a document that holds one placeholder whose type name
      exactly one entry carries: once a first build has converted it
      successfully and left the artifact in place, a second build converts
      nothing, leaves every mtime as it was and yields the same tree. */
  lemma RebuildPlaceholderIsIdempotent(env: Env, types: Types, order: seq<string>, docname: string,
                                       fs: FileSystem, tag: string, top: Attrs, attrs: Attrs, j: int)
    requires HasStr(attrs, "uri") && HasStr(attrs, "imageext_type")
    requires WellFormed(Node(Element(tag), top, [Node(Placeholder, attrs, [])]))
    requires Enumerates(order, types)
    requires 0 <= j < |order| && order[j] in types && types[order[j]].name == attrs["imageext_type"].s
    requires forall i | 0 <= i < |order| && i != j :: order[i] !in types || types[order[i]].name != attrs["imageext_type"].s
    requires var conv := types[order[j]].handler;
             var v := Visit(env, conv, docname, fs, attrs);
             && v.replacement.Some?
             && (SourcePath(env, attrs) in v.fs ==> ArtifactPath(env, conv, docname, attrs) in v.fs)
    ensures var doc := Node(Element(tag), top, [Node(Placeholder, attrs, [])]);
            var r1 := OnDoctreeResolved(env, types, order, docname, fs, doc);
            var r2 := OnDoctreeResolved(env, types, order, docname, r1.fs, doc);
            r2.conversions == 0 && r2.fs == r1.fs && r2.node == r1.node
  {
    var conv := types[order[j]].handler;
    var typeName := attrs["imageext_type"].s;
    var v1 := Visit(env, conv, docname, fs, attrs);
    VisitIdempotent(env, conv, docname, fs, attrs);
    OneEntryVisits(env, types, order, docname, fs, attrs, typeName, j);
    OneEntryVisits(env, types, order, docname, v1.fs, attrs, typeName, j);
    PlaceholderDocImagePass(env, types, docname, fs, tag, top, attrs);
    PlaceholderDocImagePass(env, types, docname, v1.fs, tag, top, attrs);
    PlaceholderDocPass(env, types, order, docname, fs, tag, top, attrs);
    PlaceholderDocPass(env, types, order, docname, v1.fs, tag, top, attrs);
  }
}

=== FILE: utils.dfy ===
/** utils.py: the staleness predicate, the `if_outdated` decorator and the
    choice of the image output directory.

    The filesystem is a finite map from path to modification time. A path
    exists exactly when it is a key; times are exact reals. */
module Utils {
  import opened Wrappers
  import opened Paths

  type FileSystem = map<Path, real>

  /** `math.ceil` on a timestamp, written through `Floor`. */
  function Ceil(x: real): (n: int)
    ensures x <= n as real < x + 1.0
  {
    -((-x).Floor)
  }

  /** `is_outdated(source, artifact)`: regeneration is needed when the source
      exists and the artifact is missing or strictly older. */
  function IsOutdated(fs: FileSystem, src: Path, dst: Path): (r: bool)
    ensures src !in fs ==> !r
    ensures src in fs ==> (r <==> dst !in fs || fs[dst] < fs[src])
  {
    src in fs && (dst !in fs || fs[dst] < fs[src])
  }

  /** Setting the artifact's mtime to the ceiling of the source's makes it
      fresh; this is what keeps a second build pass from converting again. */
  lemma SyncedIsFresh(fs: FileSystem, src: Path, dst: Path)
    requires src in fs
    ensures !IsOutdated(fs[dst := Ceil(fs[src]) as real], src, dst)
  {
  }

  /** Touching the source forward past the synchronised artifact time makes
      the artifact stale again, so the next build converts once more. */
  lemma TouchedIsOutdated(fs: FileSystem, src: Path, dst: Path, t: real)
    requires src != dst && src in fs && dst in fs
    requires fs[dst] == Ceil(fs[src]) as real
    requires t > fs[dst]
    ensures IsOutdated(fs[src := t], src, dst)
  {
  }

  // ---------------------------------------------------------------------
  // if_outdated

  /** What the wrapped call answered: the literal `True` of the fast path,
      or whatever the wrapped function returned. */
  datatype Guarded<T> = SkippedTrue | Ran(value: T)

  /** `if_outdated(fn)` applied to `(filename, to)`: `fn` runs, with its
      effect on the filesystem, only when the artifact is outdated. */
  function IfOutdated<T>(fn: (FileSystem, Path, Path) -> (FileSystem, T),
                         fs: FileSystem, filename: Path, to: Path): (r: (FileSystem, Guarded<T>))
    ensures r.1.SkippedTrue? <==> !IsOutdated(fs, filename, to)
    ensures r.1.SkippedTrue? ==> r.0 == fs
    ensures r.1.Ran? ==> (r.0, r.1.value) == fn(fs, filename, to)
  {
    if IsOutdated(fs, filename, to) then
      var (fs', v) := fn(fs, filename, to);
      (fs', Ran(v))
    else
      (fs, SkippedTrue)
  }

  // ---------------------------------------------------------------------
  // get_imagedir

  /** What `get_imagedir` asks of the Sphinx builder. `imagedir` is `None`
      when the builder has no such attribute (Sphinx before 1.3);
      `targetUri` is `builder.get_target_uri`. */
  datatype Builder = Builder(
    imagedir: Option<string>,
    hasImgpath: bool,
    format: string,
    outdir: Path,
    targetUri: string -> string)

  /** The directory name chosen by priority: the builder's own `imagedir`,
      else `_images` for builders with `imgpath` or html output, else none. */
  function ImageDirName(b: Builder): (d: string)
    ensures b.imagedir.Some? ==> d == b.imagedir.value
    ensures b.imagedir.None? && (b.hasImgpath || b.format == "html") ==> d == "_images"
    ensures b.imagedir.None? && !b.hasImgpath && b.format != "html" ==> d == ""
  {
    match b.imagedir
    case Some(d) => d
    case None => if b.hasImgpath || b.format == "html" then "_images" else ""
  }

  /** `get_imagedir(app, docname)`: the prefix for embedding in markup,
      relative to the document's output location, and the absolute
      directory to write into. `relativeUri` is Sphinx's `relative_uri`. */
  function GetImagedir(b: Builder, relativeUri: (string, string) -> string,
                       docname: string): (r: (string, Path))
    ensures r.1 == Join(b.outdir, ImageDirName(b))
    ensures ImageDirName(b) == "" ==> r.0 == ""
    ensures ImageDirName(b) != "" ==> r.0 == relativeUri(b.targetUri(docname), ImageDirName(b))
  {
    var dirname := ImageDirName(b);
    var relpath := if dirname != "" then relativeUri(b.targetUri(docname), dirname) else "";
    (relpath, Join(b.outdir, dirname))
  }

  /** The absolute directory never depends on the document. */
  lemma AbsImagedirIndependentOfDoc(b: Builder, relativeUri: (string, string) -> string,
                                   doc1: string, doc2: string)
    ensures GetImagedir(b, relativeUri, doc1).1 == GetImagedir(b, relativeUri, doc2).1
  {
  }

  /** A latex-like builder (no `imagedir`, no `imgpath`, not html) embeds
      images with an empty prefix for every document, and writes them into
      `join(outdir, '')`. */
  lemma NonHtmlBuilderHasNoPrefix(b: Builder, relativeUri: (string, string) -> string,
                                  docname: string)
    requires b.imagedir.None? && !b.hasImgpath && b.format != "html"
    ensures GetImagedir(b, relativeUri, docname) == ("", Join(b.outdir, ""))
  {
  }
}

=== FILE: wrappers.dfy ===
/** Option and Result: the model's stand-ins for Python's `None` and for
    exceptions that a caller catches. */
module Wrappers {

  datatype Option<+T> = None | Some(value: T)

  /** `Failure` carries the message of a caught ValueError or TypeError. */
  datatype Result<+T, +E> = Success(value: T) | Failure(error: E)
}
